=== FILE: README.md ===
# mineworker in Dafny

A model of the decision logic inside mineworker, a terminal console that prepares and runs
a Minecraft Forge server on a worker machine. The model covers:

- **Upload** (`upload.dfy`): the world is zipped into an archive named from the sanitised
  locale time. The archive is then sent to Google Drive by a resumable upload in 5 MiB
  chunks. Each chunk carries a `Content-Range: bytes first-last/complete-length` header, in
  the form of section 14.4 of RFC 9110. Only replies 200, 201 and 308 are accepted.
- **Install** (`install.dfy`, `configfile.dfy`): the server-type gate, the Forge installer
  finder and validator, and the memory validator `^\d+[MG]$`. It also covers the text of
  `user_jvm_args.txt`, the rewritten `run.sh`, and the `mineworker_config.json` record. The
  files are written in order, and only after the installer ran.
- **Start** (`start.dfy`): the ordered guard ladder before `run.sh` is spawned.
- **Load** (`load.dfy`): picking a world from the Drive listing, the metadata guard, and the
  running download counter as a fold over an abstract stream of events. It also covers the
  clean-up of `world.zip`.
- **Console** (`console.dfy`, `session.dfy`): the session name `mineworker_<type>`, the
  "Session:" label taken from `screen -ls`, and the IPv4/IPv6 address sets. It also covers
  stop and restart sequencing, and what each menu choice does next.

`jstext.dfy` and `decimal.dfy` restate the JavaScript built-ins the code relies on:
`trim` with the ECMA-262 white-space set, `split`, `includes`, per-character global
`replace`, number-to-string and `parseInt`.

Every effect (HTTP, child processes, file system, prompts) is an input or an output of a
pure function:

- The inputs are abstract: which prompt attempts were made, how each request or command
  ended, which chunks a stream yields, and whether a file exists.
- The output is the run: the ordered list of visible steps or effects, plus an outcome.

Three functions the code imports are not part of this model: `getServerConfig`,
`waitForScreenExit` (both imported from `src/utils.ts` but not defined there) and
`getPublicIp`. Their results are inputs, as is `getGoogleAuth`'s.

Notes on the code:

- The Forge installer's exit status and `unzip`'s exit status are never checked. A
  completed installer output stream and a spawned `unzip` count as success.
- The load action opens `world.zip` for writing before it checks the file metadata. An
  invalid entry therefore still creates the archive.
- After a stream error, the error handler deletes `world.zip` and closes the write stream.
  Closing ends the stream, so the unzip still runs, and the final delete then throws.
- The "Session:" label trims the first line before it turns tabs into spaces.
  `Session.TrimCommutes` proves the order does not matter, because a tab is white space
  for `trim`.

## Model

| member | source | states |
|---|---|---|
| Upload.SanitizeTime | src/actions/upload.ts:15-28 | The file-name stem has no `,`, `/`, `:` or white space; a time string already free of them is kept as it is; it is never longer than the input |
| Upload.SanitizeOnePass | src/actions/upload.ts:25-28 | The four chained global replaces equal one per-character map: a comma is dropped, and `/`, `:` and white space become `-` |
| Upload.SanitizeIdempotent | src/actions/upload.ts:25-28 | Sanitising a sanitised name changes nothing |
| Upload.SanitizeLocaleTime | src/actions/upload.ts:15-28 | A locale time of the form `MM/DD/YYYY, hh:mm:ss AM` with clean fields becomes `MM-DD-YYYY-hh-mm-ss-AM` |
| Upload.ArchiveNameShape | src/actions/upload.ts:33-35 | The archive name ends in `.zip`; its stem is the sanitised time; it contains no `/`, `:`, `,` or white space |
| Upload.Ranges | src/actions/upload.ts:144-151 | Each chunk's range starts at the bytes uploaded before it and ends at start + length - 1; its total is the file size |
| Upload.RangesContiguous | src/actions/upload.ts:146-158 | Each range starts one byte after the previous range ends |
| Upload.RangesDisjoint | src/actions/upload.ts:144-158 | Ranges of non-empty chunks ascend and never overlap |
| Upload.LastRangeEnd | src/actions/upload.ts:144-158 | The last range ends at the sum of the chunk lengths minus one, which is size - 1 when the stream yields the whole file |
| Upload.ProgressMonotone | src/actions/upload.ts:158 | `uploadedBytes` never decreases, and after the last chunk it equals the sum of all chunk lengths |
| Upload.StreamLengths | src/actions/upload.ts:115-117 | A read stream with a 5 MiB high-water mark yields chunks that sum to the file size; each holds 1 to 5 MiB, and all but the last are full |
| Upload.TwelveMiBExample | src/actions/upload.ts:115-158 | A 12 MiB file gives the ranges 0-5242879, 5242880-10485759 and 10485760-12582911 of 12582912 |
| Upload.RangeHeaderRoundTrip | src/actions/upload.ts:151 | The `Content-Range` text parses back to the range it was made from |
| Upload.FirstRejected | src/actions/upload.ts:153 | Finds the first chunk whose reply is unreachable or outside 200/201/308; every earlier reply is accepted |
| Upload.SendChunks | src/actions/upload.ts:144-167 | The chunk loop sends the ranges up to and including the first rejected chunk, and no later one; it succeeds iff every reply is accepted; `uploadedBytes` is the sum of the delivered lengths |
| Upload.RunUpload | src/actions/upload.ts:30-178 | In the action as written and in the corrected one alike, a zip failure ends the action before authentication, and a chunk is sent only after zipping, authentication, the existence check and a non-empty upload URL |
| Upload.UploadSendsChunks | src/actions/upload.ts:136-178 | In both variants, with an upload URL, the PUT ranges are the loop's ranges; the upload succeeds iff every reply is accepted; on failure the last PUT is the rejected one |
| Upload.NoUrlNoChunks | src/actions/upload.ts:136-142 | In both variants, with no `location` in the initiation reply, no chunk is sent and the action stops |
| Upload.FileIdFinding | src/actions/upload.ts:169-174 | As written, the reported file id comes from the initiation reply's body; an upload whose final reply names the file still reports none |
| Upload.ReportsFinalId | src/actions/upload.ts:136-174 | The corrected action takes the same steps as the action as written and ends the same way, except that a successful upload reports the final chunk's file id where the code reports the initiation body's |
| Install.Prompt | src/actions/install.ts:43-56 | A text prompt resolves at the first interrupt or at the first entry its validator accepts; a submitted answer always passes the validator |
| Install.PromptFirstResolving | src/actions/install.ts:43-56 | After rejected entries, the prompt returns exactly the first accepted entry, or a cancel at the first interrupt |
| Install.OnlyForge | src/actions/install.ts:28-31 | Any server type other than `forge` cancels with "Installation for <type> is not supported yet." and has no effects |
| Install.RunInstall | src/actions/install.ts:7-43 | In either variant, the action has an effect only once `forge` was selected and the world directory was read, and its first effect is suggesting the installer found there |
| Install.FindInstaller | src/actions/install.ts:36-41 | The suggested installer is a directory entry whose lower-cased name contains `forge` and whose name ends in `installer.jar`; there is none only when no entry qualifies |
| Install.FindInstallerFirst | src/actions/install.ts:36-41 | The first qualifying entry in directory order is the one suggested |
| Install.InstallerAccepted | src/actions/install.ts:48-53 | An installer name is accepted iff it is non-empty and exists in the world directory |
| Install.MatchMemory | src/actions/install.ts:142 | The matcher accepts a string iff it is one or more ASCII digits followed by exactly one `M` or `G` |
| Install.MemoryAccepted | src/actions/install.ts:140-145 | The memory validator accepts exactly that pattern; an empty value gets "Memory allocation cannot be empty." |
| Install.MemoryVerbatim | src/actions/install.ts:148-184 | An accepted memory value is unchanged by `trim` and by JSON string escaping |
| Install.JvmArgsLines | src/actions/install.ts:155-158 | `user_jvm_args.txt` holds the two lines `-Xmx<m>` and `-Xms<m>`, each ended by a newline |
| Install.JavaLine | src/actions/install.ts:165-169 | The kept line starts with `java` and is a line of the old script; it is empty iff no line starts with `java`; it holds no newline |
| Install.FirstStartingWithFirst | src/actions/install.ts:165-169 | The kept line is the first line in order that starts with `java` |
| Install.RunScriptLines | src/actions/install.ts:171-173 | The new `run.sh` has exactly two lines: the `sh` shebang, and `screen -dmS mineworker_forge ` followed by the kept java line |
| Install.LaunchNamesSession | src/actions/install.ts:171 | The launch line names the session `mineworker_forge` that start and stop look for |
| Install.InstalledConfigReadsBack | src/actions/install.ts:176-185 | The JSON written for the saved record reads back as `forge`, the world path and the memory |
| Install.InstallerStageWrites | src/actions/install.ts:73-132 | Nothing is written if the installer throws; any write comes after the installer run |
| Install.WritesFollowInstaller | src/actions/install.ts:77-185 | Over the whole action, every write follows the suggestion and the installer run, and only writes come after them; an installer that throws or never finishes leads to no write, and one whose output never ends leaves the action pending right after the installer run |
| Install.InstalledWrites | src/actions/install.ts:36-185 | A completed install makes exactly five effects in order: the suggestion, the installer run, then writes of the JVM arguments, `run.sh` and the config |
| Install.InstalledMemoryValid | src/actions/install.ts:134-158 | In the corrected action, a completed install wrote a memory value matching `^\d+[MG]$` |
| Install.MemoryCancelFinding | src/actions/install.ts:134-158 | As written, cancelling the memory prompt still completes the install and writes `-XmxSymbol(clack:cancel)` |
| Install.MemoryCancelCorrected | src/actions/install.ts:150-153 | In the corrected action, cancelling the memory prompt cancels the install after the installer run, with no write |
| Install.CancelEntered | src/actions/install.ts:134-153 | As written, a cancelled prompt goes on with the text `Symbol(clack:cancel)`; the corrected prompt stops with "Installation cancelled." |
| ConfigFile.ConfigRoundTrip | src/actions/install.ts:182-185 | The text `JSON.stringify(config, null, 2)` produces reads back as the same record |
| ConfigFile.ReadQuoted | src/actions/install.ts:184 | A JSON-escaped string followed by its closing quote reads back to the original string |
| Decimal.NatToString | src/actions/upload.ts:151 | A number prints as decimal digits with no leading zero, and the digits denote that number |
| Decimal.ParseIntRendered | src/actions/load.ts:96 | `parseInt` of a printed number gives the number back when the text after it does not start with a digit, `x` or `X` |
| Session.RunningIff | src/actions/start.ts:40-47 | A session counts as running iff the listing succeeded and one of its lines contains the session name |
| Session.LabelIsFirstMatch | src/index.ts:86-93 | The label is the first listing line that contains the session name, trimmed, with its tabs turned into spaces; it is empty when no line matches |
| Session.TrimCommutes | src/index.ts:91 | Trimming and then replacing tabs gives the same text as replacing tabs and then trimming |
| Session.LabelEmptyIff | src/index.ts:91 | The label is empty iff the session is not running |
| Session.LabelExample | src/index.ts:86-93 | The listing line for session 4242 of `mineworker_forge` gives the label `4242.mineworker_forge (Detached)` |
| Session.SessionLabel | src/index.ts:86-93 | The label holds no tab and neither starts nor ends with white space |
| Start.SpawnsIff | src/actions/start.ts:9-62 | `run.sh` is spawned, in the world directory, iff every guard passes and no forge session is listed |
| Start.FailingGuard | src/actions/start.ts:9-53 | Numbers the first failing guard; the number is 5, meaning none fails, iff the server can be spawned |
| Start.FirstFailingGuardDecides | src/actions/start.ts:9-53 | Two states that agree on what the first failing guard and the guards before it examine end the same way |
| Start.ListingFailureIsNotRunning | src/actions/start.ts:40-47 | A failing `screen -ls` pipeline behaves exactly like an empty listing |
| Start.QueriedSession | src/actions/start.ts:30-40 | Sessions are queried only for a forge record, and the query is for `mineworker_forge` |
| Start.UnsupportedNamed | src/actions/start.ts:30-35 | A non-forge record is refused with its type in the message, before any session query |
| Start.StartServer | src/actions/start.ts:9-62 | The only session queried is `mineworker_forge`; nothing is spawned or found running before that query; the server is found running only when the session is listed, and is spawned only when it is not, as the world's `run.sh` in the world directory |
| Load.NoWorldsStops | src/actions/load.ts:44-54 | An empty, absent or failed listing ends the action before selection or download |
| Load.LoadWorld | src/actions/load.ts:16-103 | No step happens unless authentication succeeded, and the first step is opening `world.zip`; every media request is for the selected id |
| Load.Download | src/actions/load.ts:92-142 | The first step opens `world.zip`; the only media request is the second step and asks for the file's own id; a load completes only when the archive could be written and the stream ended |
| Load.UnwritableArchiveRejects | src/actions/load.ts:92-142 | When `world.zip` cannot be created or written, the action rejects right after the media request: no progress, unzip or delete follows |
| Load.FindWorld | src/actions/load.ts:79-84 | The chosen world is the first listed file whose id equals the selected id; none is chosen when no id matches |
| Load.PickedWorld | src/actions/load.ts:64-84 | Selecting a listed world with an id finds a world, and finds that one when no earlier file shares its id |
| Load.DownloadsSelected | src/actions/load.ts:79-103 | The download is of the first matching world; no match stops with "No world selected" |
| Load.MetadataGuard | src/actions/load.ts:92-101 | A missing name or id ends the action after `world.zip` is opened and before the media request |
| Load.ExpectedSizeOf | src/actions/load.ts:96 | The expected size is the parsed `size` field, and 0 when it is absent or empty |
| Load.Receive | src/actions/load.ts:108-136 | After each data event, `downloaded` is the sum of the chunk lengths so far; the fold also records how the stream finished |
| Load.DownloadedMonotone | src/actions/load.ts:108-113 | `downloaded` never decreases, and its last shown value is the final count |
| Load.ProgressShown | src/actions/load.ts:103-120 | After the media request, the progress steps show each running count against the expected size |
| Load.ErrorDeletesArchive | src/actions/load.ts:130-170 | A stream error deletes `world.zip`; the unzip then still runs, and the final delete throws |
| Load.Unpack | src/actions/load.ts:144-171 | The steps before are kept; only making the world directory, unzipping and deleting the archive follow; the load completes iff `unzip` spawned and the archive is still there |
| Load.LoadedCleansUp | src/actions/load.ts:144-171 | A completed load streamed to its end, made the world directory only if it was missing, ran `unzip`, and deleted `world.zip` as its last step and nowhere earlier |
| Load.UnpackShape | src/actions/load.ts:144-171 | After steps that neither make the directory nor delete the archive, a load that completes ends with the unzip then the deletion, deletes nowhere else, and makes the directory exactly when it was absent |
| Console.Insert | src/index.ts:22-45 | Adding to an address set keeps the members already in it and their order, adds the address once, and keeps the set free of repeats |
| Console.Visits | src/index.ts:31-45 | Every visited non-internal entry's address ends up in the set of its family; what was in a set stays, in the same order at the front, and neither set gains a duplicate |
| Console.VisitsOnlyListed | src/index.ts:31-45 | Nothing else enters: an address in either set was there before or is carried by a visited non-internal entry of that family |
| Console.CollectAddresses | src/index.ts:26-45 | The IPv4 set holds the public IP first, if it is non-empty, then every non-internal `IPv4`/`4` address; the IPv6 set holds every non-internal `IPv6`/`6` address; neither has repeats |
| Console.InternalNeverListed | src/index.ts:37-43 | An address that only internal entries carry, and that is not the public IP, is in neither set |
| Console.SetupGetsFirstAddress | src/index.ts:252 | Quick setup is given the public IP, or else the first non-internal IPv4 address in table order |
| Console.MenuSetupAddress | src/index.ts:251-253 | The setup choice of the menu runs setup with the public IP when the lookup returned a non-empty one, and otherwise with the first non-internal IPv4 address of the interface table |
| Console.AddressLineShows | src/index.ts:144-149 | The line reads "Not available" for an empty set or one holding only an empty string; otherwise, for comma-free addresses, splitting it at its commas gives the first address and then each further address behind one space, in insertion order |
| Console.SessionLine | src/index.ts:130-132 | Shows "Not running" when the configured type's session is not listed, and its non-empty label when it is |
| Console.StopCommandWords | src/index.ts:292 | The stop command splits into `screen -S <session> -X stuff "stop\n"`, where the session is `mineworker_<type>` and the text typed is `stop` plus a newline |
| Console.StopReportsAfterExit | src/index.ts:287-305 | Stop reports success iff the command went through and the wait for exit completed, and only after that wait; when the command or the wait throws it reports the first error; when the wait never ends, the command and the wait are the last steps and nothing is reported |
| Console.StopSteps | src/index.ts:287-305 | The second step is the stop command; the choice re-enters the menu iff the wait for exit ends (by exiting or by throwing), and then only at the end after waiting for Enter; a wait that never ends is the last step |
| Console.StopFails | src/index.ts:297-300 | A failed stop reports the error message, or "Unknown error" for a non-`Error` value, and never reports success |
| Console.RestartStartsOnlyAfterStop | src/index.ts:307-332 | Restart runs `start` iff the stop went through; when the command or the wait throws it reports the error and returns to the menu without starting; when the wait never ends, the command and the wait are the last steps |
| Console.RestartSteps | src/index.ts:307-332 | The third step is the stop command; restart returns to the menu iff the stop threw, or the stop went through and the start resolved, and then re-enters only at the end; a wait that never ends is the last step |
| Console.StopTargetsConfiguredSession | src/index.ts:292-293 | Stop sends its command to the configured type's session and then waits on that session |
| Console.Menu | src/index.ts:250-365 | For either variant of install and upload, every choice except exit, console and a dismissed menu re-enters the menu iff its work resolves (its action's promise resolves, and for stop and restart the wait for exit ends), and then by waiting for Enter at the end and nowhere else |
| Console.RefusedStartReturns | src/actions/start.ts:9-53 | Every refusal of the start action, and a server already running, comes back to the menu; the process ends only when reading the config throws or a spawned server's output stream fails |
| Console.RejectionEndsProcess | src/index.ts:257-285 | An action that rejects, such as a load whose request fails, ends the process instead of returning to the menu; one that never settles leaves the menu closed |
| Console.EndlessWaitKeepsMenuClosed | src/index.ts:287-332 | A stop or restart whose wait for the session's exit never ends never settles and leaves the menu closed: that wait is the last step, and neither success nor an error is reported |
| Console.ExitTerminates | src/index.ts:359-361 | Exit ends the process with code 0, without waiting or re-entering |
| Console.ConsoleAttachesForge | src/index.ts:340-351 | The console attaches to `mineworker_forge` whatever the configured type, and returns to the menu only once that session exits |
| Console.ActionsShareWorld | src/index.ts:257-332 | Load, install, start and a restart whose stop went through are given the console's world directory; the menu as written runs the install and upload actions as written |

## Left out

- Terminal output is not modelled: colours, spinners, boxes, `console.clear`, and the banner
  lines for versions, platform, uptime and PID. Only the server-type, session and address
  lines are modelled.
- Percentages and MB figures are floating point and display only, so they are not modelled.
- The `toLocaleTimeString` / `toLocaleString` formatting is not modelled. The sanitiser takes
  the locale string as an arbitrary input.
- `path.resolve` is not modelled. Paths are the world path joined with `/`.
- HTTP, Google Drive, OAuth (`src/gAuth.ts`), Cloudflare (`src/dns.ts`) and the access
  token are foreign calls. Each becomes an abstract reply.
- Quick setup (`src/actions/setup.ts`) installs packages through `sudo`. It is represented
  only by the address it is given.
- Prompt `defaultValue` substitution is not modelled. An empty submission is an entry that
  the validator judges.
- The SIGINT handler in the installer and the abort controller are process signals, so they
  are not modelled.
- The text of the child processes' output streams is not modelled. The installer's stream
  ends, throws, or never ends. A spawned server's stream is an input of the menu: it ends,
  fails, or never ends.
- `waitForScreenExit`, `getServerConfig` and `getPublicIp` are inputs, because their bodies
  are not part of this model. The wait for a session's exit may end, throw, or never end;
  the last case stands for a poll with no timeout whose session never exits. Reading the
  config in the start action may give a record, give nothing, or throw.
- `fs.writeFileSync` failures are not modelled. Reading the directory and reading `run.sh`
  may fail.
- Load.Download: when the metadata is invalid, the action returns before it listens on the
  write stream, so the stream's later open error for an unwritable `world.zip` has no
  listener. The model ends that case with the metadata message and does not model the
  unobserved error event.
- The menu's `create` and `logs` cases are not offered as options, so they are unreachable
  and not modelled.
- Upload.StreamLengths: states the chunking of a file read stream as full 5 MiB chunks
  followed by a remainder. The actual chunk sizes are the runtime's. The range lemmas hold
  for any chunk lengths.
- Decimal.NatToString: a number is printed with every digit. JavaScript numbers are doubles, and
  `${n}` switches to exponent form from 1e21, so the `Content-Range` text of
  Upload.RangeHeader differs from the code's beyond that size.
- Load.ExpectedSizeOf: the size reads back exactly for every natural number. `parseInt` yields a
  double, which is exact only up to 2^53, so the code loses precision beyond that.
- Upload.RunUpload: the archive's read stream cannot fail part-way. In the code an error raised
  inside the `for await` over the stream (src/actions/upload.ts:144) is caught at line 175
  like a failed PUT; the chunk list of the input cannot express it.
- Session.Running: the query tests whether a listing line contains the session name.
  `grep mineworker_<type>` takes its argument as a basic regular expression, so a server type
  with regular-expression characters (`.`, `*`, `[`) matches more or other lines than the model
  says.
- Decimal.ParseIntRendered: covers printed decimal numbers only. `parseInt` of `0x` text
  and of signed or space-led text is modelled, but it has no round-trip lemma.

## Findings

| source | as written | input that shows it | evidently intended | confidence | as-written member | corrected member |
|---|---|---|---|---|---|---|
| src/actions/upload.ts:169-174 | The reported file id is read from the body of the session-initiation POST. A resumable-upload initiation returns only a `location`, so the id shown is `undefined` | An initiation reply with location `u` and no body id, then one chunk whose reply is 200 with id `id`: the upload reports no id | Report the id in the final chunk's reply | not executed | Upload.FileIdFinding | Upload.ReportsFinalId |
| src/actions/install.ts:134-158 | A cancelled memory prompt yields clack's cancel symbol. `toString()` turns it into `Symbol(clack:cancel)`, which is non-empty, so the install continues | Forge selected, installer entered and run, then Ctrl-C at the memory prompt: `user_jvm_args.txt` gets `-XmxSymbol(clack:cancel)` and the config records that memory | Cancel the installation, as an empty value does | not executed | Install.MemoryCancelFinding | Install.MemoryCancelCorrected |

=== FILE: configfile.dfy ===
/** The persisted server record `mineworker_config.json`: the text
    `JSON.stringify(config, null, 2)` writes for it, and a reader for exactly
    that layout which recovers the record. */
module ConfigFile {
  import opened JsText
  import opened Decimal

  const ConfigFileName := "mineworker_config.json"

  datatype ServerConfig = ServerConfig(serverType: string, worldPath: string, memory: string)

  /** Lower-case hexadecimal digit, as JSON.stringify writes in `\u00XX`. */
  function HexChar(d: nat): (c: char)
    requires d < 16
    ensures IsHexDigit(c) && HexValue(c) == d
  {
    if d < 10 then DigitChar(d) else ('a' as int + d - 10) as char
  }

  /** The escape JSON.stringify writes for one character of a string. */
  function EscapeChar(c: char): (e: string)
    ensures |e| >= 1
    ensures e[0] != '"'
    ensures |e| == 1 <==> e == [c]
  {
    if c == '"' then "\\\""
    else if c == '\\' then "\\\\"
    else if c == '\U{0008}' then "\\b"
    else if c == '\t' then "\\t"
    else if c == '\n' then "\\n"
    else if c == '\U{000C}' then "\\f"
    else if c == '\r' then "\\r"
    else if c < ' ' then "\\u00" + [HexChar(c as int / 16), HexChar(c as int % 16)]
    else [c]
  }

  /** The body of a JSON string literal for `s`, without the quotes. */
  function Escape(s: string): string
  {
    if |s| == 0 then [] else EscapeChar(s[0]) + Escape(s[1..])
  }

  const ServerTypeKey := "{\n  \"serverType\": \""
  const WorldPathKey := ",\n  \"worldPath\": \""
  const MemoryKey := ",\n  \"memory\": \""
  const Closing := "\n}"

  /** `JSON.stringify({serverType, worldPath, memory}, null, 2)`: an opening
      brace, one line per key indented by two spaces with the key quoted and
      followed by `": "` and the quoted value, commas between the lines, and a
      closing brace on its own line. Each key constant below carries the line
      break and indentation before it and the opening quote of its value. */
  function ConfigText(c: ServerConfig): string
  {
    ServerTypeKey + Escape(c.serverType) + "\""
    + (WorldPathKey + Escape(c.worldPath) + "\""
    + (MemoryKey + Escape(c.memory) + "\"" + Closing))
  }

  /** The character a JSON escape sequence (the part after the backslash)
      stands for, and how many characters of `t` it used. */
  function Unescape(t: string): Option<(char, nat)>
  {
    if |t| == 0 then None
    else if t[0] == '"' || t[0] == '\\' || t[0] == '/' then Some((t[0], 1))
    else if t[0] == 'b' then Some(('\U{0008}', 1))
    else if t[0] == 'f' then Some(('\U{000C}', 1))
    else if t[0] == 'n' then Some(('\n', 1))
    else if t[0] == 'r' then Some(('\r', 1))
    else if t[0] == 't' then Some(('\t', 1))
    else if t[0] == 'u' && |t| >= 5 && forall i :: 1 <= i < 5 ==> IsHexDigit(t[i]) then
      var code := HexDigitsValue(t[1..5]);
      assert Pow16(4) == 0x10000;
      if 0xD800 <= code < 0xE000 then None else Some((code as char, 5))
    else None
  }

  /** Reads a JSON string body up to its closing quote: the decoded value and
      what follows the quote. */
  function ReadString(s: string): Option<(string, string)>
    decreases |s|
  {
    if |s| == 0 then None
    else if s[0] == '"' then Some(("", s[1..]))
    else if s[0] == '\\' then
      match Unescape(s[1..])
      case None => None
      case Some((c, n)) => Prepend(c, ReadString(s[1 + n..]))
    else if s[0] < ' ' then None
    else Prepend(s[0], ReadString(s[1..]))
  }

  function Prepend(c: char, r: Option<(string, string)>): Option<(string, string)>
  {
    match r
    case None => None
    case Some((v, rest)) => Some(([c] + v, rest))
  }

  /** Reads `key` and then a string body. */
  function ReadField(s: string, key: string): Option<(string, string)>
  {
    if StartsWith(s, key) then ReadString(s[|key|..]) else None
  }

  /** Reads back the layout `ConfigText` writes; any other text is `None`. */
  function ReadConfig(text: string): Option<ServerConfig>
  {
    match ReadField(text, ServerTypeKey)
    case None => None
    case Some((t, r1)) =>
      match ReadField(r1, WorldPathKey)
      case None => None
      case Some((w, r2)) =>
        match ReadField(r2, MemoryKey)
        case None => None
        case Some((m, r3)) =>
          if r3 == Closing then Some(ServerConfig(t, w, m)) else None
  }

  lemma HexPair(a: nat, b: nat)
    requires a < 16 && b < 16
    ensures HexDigitsValue(['0', '0', HexChar(a), HexChar(b)]) == 16 * a + b
  {
    var s := ['0', '0', HexChar(a), HexChar(b)];
    assert s[..3] == ['0', '0', HexChar(a)];
    assert s[..3][..2] == ['0', '0'];
    assert s[..3][..2][..1] == ['0'];
    assert HexDigitsValue(['0']) == 0;
    assert HexDigitsValue(['0', '0']) == 0;
    assert HexDigitsValue(['0', '0', HexChar(a)]) == a;
  }

  /** Reading one escaped character in front of more text. */
  lemma ReadEscapedChar(c: char, tail: string)
    ensures ReadString(EscapeChar(c) + tail) == Prepend(c, ReadString(tail))
  {
    var s := EscapeChar(c) + tail;
    if c < ' ' && c != '\U{0008}' && c != '\t' && c != '\n' && c != '\U{000C}' && c != '\r' {
      ReadUnicodeEscape(c, tail);
    } else if |EscapeChar(c)| == 2 {
      assert s[1 + 1..] == tail;
    } else {
      assert s[1..] == tail;
    }
  }

  /** A control character written as `\u00XY` reads back as itself. */
  lemma ReadUnicodeEscape(c: char, tail: string)
    requires c < ' ' && c != '\U{0008}' && c != '\t' && c != '\n' && c != '\U{000C}' && c != '\r'
    ensures ReadString(EscapeChar(c) + tail) == Prepend(c, ReadString(tail))
  {
    var a, b := c as int / 16, c as int % 16;
    var e := EscapeChar(c);
    assert e == ['\\', 'u', '0', '0', HexChar(a), HexChar(b)];
    var s := e + tail;
    var t := s[1..];
    assert t[0] == 'u' && t[1] == '0' && t[2] == '0' && t[3] == HexChar(a) && t[4] == HexChar(b);
    assert t[1..5] == ['0', '0', HexChar(a), HexChar(b)];
    HexPair(a, b);
    assert HexDigitsValue(t[1..5]) == c as int;
    assert Unescape(t) == Some((c, 5));
    assert s[1 + 5..] == tail;
  }

  /** A quoted string reads back as its value, leaving what follows. */
  lemma {:induction false} ReadQuoted(v: string, rest: string)
    ensures ReadString(Escape(v) + "\"" + rest) == Some((v, rest))
    decreases |v|
  {
    if |v| == 0 {
      assert Escape(v) + "\"" + rest == "\"" + rest;
    } else {
      var tail := Escape(v[1..]) + "\"" + rest;
      assert Escape(v) + "\"" + rest == EscapeChar(v[0]) + tail;
      ReadEscapedChar(v[0], tail);
      ReadQuoted(v[1..], rest);
      assert [v[0]] + v[1..] == v;
    }
  }

  lemma ReadFieldOf(key: string, v: string, rest: string)
    ensures ReadField(key + Escape(v) + "\"" + rest, key) == Some((v, rest))
  {
    var s := key + Escape(v) + "\"" + rest;
    assert s[..|key|] == key;
    assert s[|key|..] == Escape(v) + "\"" + rest;
    ReadQuoted(v, rest);
  }

  /** Writing a record and reading the text back gives the record field for
      field, whatever its server type says. */
  lemma ConfigRoundTrip(c: ServerConfig)
    ensures ReadConfig(ConfigText(c)) == Some(c)
  {
    var r2 := MemoryKey + Escape(c.memory) + "\"" + Closing;
    var r1 := WorldPathKey + Escape(c.worldPath) + "\"" + r2;
    var text := ServerTypeKey + Escape(c.serverType) + "\"" + r1;
    ReadFieldOf(ServerTypeKey, c.serverType, r1);
    ReadFieldOf(WorldPathKey, c.worldPath, r2);
    ReadFieldOf(MemoryKey, c.memory, Closing);
  }
}

=== FILE: console.dfy ===
/** The console's entry point: the addresses it shows, the banner's server
    type and session lines, and the menu — what each choice does, and how the
    stop and restart choices drive the server's screen session. The actions
    behind the menu are the ones the other modules define; the public IP, the
    interface table, the selection made and how each awaited call settles are
    inputs. */
module Console {
  import opened JsText
  import opened Session
  import Upload
  import Install
  import Start
  import Load
  import Decimal

  // ------------------------------------------------------------ addresses

  /** An interface entry's `family`: older runtimes report the number 4 or 6,
      newer ones the string "IPv4" or "IPv6". */
  datatype Family = Named(name: string) | Numbered(number: int)

  datatype NetInfo = NetInfo(address: string, family: Family, internal: bool)

  /** The value `family` is compared with for IPv4 is the string "IPv4" when
      the entry's family is a string and the number 4 otherwise. */
  predicate IsV4(f: Family)
  {
    match f
    case Named(n) => n == "IPv4"
    case Numbered(k) => k == 4
  }

  predicate IsV6(f: Family)
  {
    match f
    case Named(n) => n == "IPv6"
    case Numbered(k) => k == 6
  }

  /** Entries whose address goes into the IPv4 or the IPv6 set. */
  predicate Listed4(net: NetInfo)
  {
    IsV4(net.family) && !net.internal
  }

  predicate Listed6(net: NetInfo)
  {
    IsV6(net.family) && !net.internal
  }

  predicate Distinct(s: seq<string>)
  {
    forall i, j :: 0 <= i < j < |s| ==> s[i] != s[j]
  }

  /** `set.add(x)` on a JavaScript `Set`, kept as its insertion order. */
  function Insert(s: seq<string>, x: string): (r: seq<string>)
    ensures forall y :: y in r <==> y in s || y == x
    ensures |s| <= |r| && r[..|s|] == s
    ensures Distinct(s) ==> Distinct(r)
  {
    if x in s then s else s + [x]
  }

  /** The two address sets in insertion order. */
  datatype Addresses = Addresses(v4: seq<string>, v6: seq<string>)

  /** One interface entry, offered to both sets. */
  function Visit(a: Addresses, net: NetInfo): (b: Addresses)
    ensures forall y :: y in b.v4 <==> y in a.v4 || (Listed4(net) && y == net.address)
    ensures forall y :: y in b.v6 <==> y in a.v6 || (Listed6(net) && y == net.address)
    ensures |a.v4| <= |b.v4| && b.v4[..|a.v4|] == a.v4
    ensures |a.v6| <= |b.v6| && b.v6[..|a.v6|] == a.v6
    ensures Distinct(a.v4) ==> Distinct(b.v4)
    ensures Distinct(a.v6) ==> Distinct(b.v6)
  {
    Addresses(
      if Listed4(net) then Insert(a.v4, net.address) else a.v4,
      if Listed6(net) then Insert(a.v6, net.address) else a.v6)
  }

  /** The entries in the order the nested `forEach` calls visit them. */
  function Visits(a: Addresses, nets: seq<NetInfo>): (b: Addresses)
    ensures forall y :: y in a.v4 ==> y in b.v4
    ensures forall net :: net in nets && Listed4(net) ==> net.address in b.v4
    ensures forall y :: y in a.v6 ==> y in b.v6
    ensures forall net :: net in nets && Listed6(net) ==> net.address in b.v6
    ensures |a.v4| <= |b.v4| && b.v4[..|a.v4|] == a.v4
    ensures Distinct(a.v4) ==> Distinct(b.v4)
    ensures Distinct(a.v6) ==> Distinct(b.v6)
    decreases |nets|
  {
    if nets == [] then a
    else
      var c := Visit(a, nets[0]);
      var b := Visits(c, nets[1..]);
      assert forall net :: net in nets ==> net == nets[0] || net in nets[1..];
      assert b.v4[..|a.v4|] == b.v4[..|c.v4|][..|a.v4|];
      b
  }

  /** Nothing enters either set but what was there and the addresses of the
      entries listed for it. */
  lemma {:induction false} VisitsOnlyListed(a: Addresses, nets: seq<NetInfo>)
    ensures forall y :: y in Visits(a, nets).v4 ==> y in a.v4 || exists net :: net in nets && Listed4(net) && net.address == y
    ensures forall y :: y in Visits(a, nets).v6 ==> y in a.v6 || exists net :: net in nets && Listed6(net) && net.address == y
    decreases |nets|
  {
    if nets != [] {
      var c := Visit(a, nets[0]);
      var b := Visits(c, nets[1..]);
      assert Visits(a, nets) == b;
      VisitsOnlyListed(c, nets[1..]);
      forall y | y in b.v4 && y !in a.v4
        ensures exists net :: net in nets && Listed4(net) && net.address == y
      {
        if y in c.v4 {
          assert nets[0] in nets;
        } else {
          var net :| net in nets[1..] && Listed4(net) && net.address == y;
          assert net in nets;
        }
      }
      forall y | y in b.v6 && y !in a.v6
        ensures exists net :: net in nets && Listed6(net) && net.address == y
      {
        if y in c.v6 {
          assert nets[0] in nets;
        } else {
          var net :| net in nets[1..] && Listed6(net) && net.address == y;
          assert net in nets;
        }
      }
    }
  }

  /** The interface table flattened; an interface with no entries
      (`undefined`) contributes nothing. */
  function Flatten(ifaces: seq<Option<seq<NetInfo>>>): (nets: seq<NetInfo>)
    ensures forall net :: net in nets <==> Attached(ifaces, net)
  {
    if ifaces == [] then []
    else
      var rest := Flatten(ifaces[1..]);
      assert forall net :: Attached(ifaces[1..], net) ==> Attached(ifaces, net) by {
        forall net | Attached(ifaces[1..], net)
          ensures Attached(ifaces, net)
        {
          var k :| 0 <= k < |ifaces[1..]| && ifaces[1..][k].Some? && net in ifaces[1..][k].value;
          assert ifaces[k + 1] == ifaces[1..][k];
        }
      }
      assert forall net :: Attached(ifaces, net) ==> (ifaces[0].Some? && net in ifaces[0].value) || Attached(ifaces[1..], net) by {
        forall net | Attached(ifaces, net)
          ensures (ifaces[0].Some? && net in ifaces[0].value) || Attached(ifaces[1..], net)
        {
          var k :| 0 <= k < |ifaces| && ifaces[k].Some? && net in ifaces[k].value;
          if k > 0 {
            assert ifaces[1..][k - 1] == ifaces[k];
          }
        }
      }
      (if ifaces[0].Some? then ifaces[0].value else []) + rest
  }

  /** `net` is an entry of one of the interfaces. */
  predicate Attached(ifaces: seq<Option<seq<NetInfo>>>, net: NetInfo)
  {
    exists k :: 0 <= k < |ifaces| && ifaces[k].Some? && net in ifaces[k].value
  }

  /** A public IP is added only when it is a non-empty string. */
  predicate Public(pub: Option<string>, y: string)
  {
    pub.Some? && pub.value != "" && y == pub.value
  }

  /** The sets the console collects at start-up: the public IP first (into
      the IPv4 set, whatever its form), then every non-internal interface
      address of the matching family, each once, in first-seen order. */
  function CollectAddresses(pub: Option<string>, ifaces: seq<Option<seq<NetInfo>>>): (a: Addresses)
    ensures forall y :: y in a.v4 ==> Public(pub, y) || exists net :: Attached(ifaces, net) && Listed4(net) && net.address == y
    ensures forall y :: y in a.v6 ==> exists net :: Attached(ifaces, net) && Listed6(net) && net.address == y
    ensures forall net :: Attached(ifaces, net) && Listed4(net) ==> net.address in a.v4
    ensures forall net :: Attached(ifaces, net) && Listed6(net) ==> net.address in a.v6
    ensures pub.Some? && pub.value != "" ==> pub.value in a.v4 && a.v4[0] == pub.value
    ensures Distinct(a.v4) && Distinct(a.v6)
  {
    var start := if pub.Some? && pub.value != "" then [pub.value] else [];
    VisitsOnlyListed(Addresses(start, []), Flatten(ifaces));
    Visits(Addresses(start, []), Flatten(ifaces))
  }

  /** An address that only internal entries carry, and that is not the
      public IP, is in neither set. */
  lemma InternalNeverListed(pub: Option<string>, ifaces: seq<Option<seq<NetInfo>>>, y: string)
    requires !Public(pub, y)
    requires forall net :: Attached(ifaces, net) && net.address == y ==> net.internal
    ensures y !in CollectAddresses(pub, ifaces).v4
    ensures y !in CollectAddresses(pub, ifaces).v6
  {
  }

  /** The address of the first entry that goes into the IPv4 set, or "". */
  function FirstListed4(nets: seq<NetInfo>): string
  {
    if nets == [] then ""
    else if Listed4(nets[0]) then nets[0].address
    else FirstListed4(nets[1..])
  }

  /** What quick setup is given: the first member of the IPv4 set, or "". */
  function SetupAddress(a: Addresses): string
  {
    if |a.v4| == 0 then "" else a.v4[0]
  }

  /** Starting from an empty IPv4 set, the first member is the first listed
      entry's address. */
  lemma {:induction false} FirstVisited(a: Addresses, nets: seq<NetInfo>)
    requires a.v4 == []
    ensures SetupAddress(Visits(a, nets)) == FirstListed4(nets)
    decreases |nets|
  {
    if nets != [] {
      var c := Visit(a, nets[0]);
      if Listed4(nets[0]) {
        assert c.v4 == [nets[0].address];
        assert Visits(a, nets) == Visits(c, nets[1..]);
      } else {
        assert c.v4 == [];
        FirstVisited(c, nets[1..]);
      }
    }
  }

  /** Quick setup gets the public IP when there is one, and otherwise the
      first non-internal IPv4 interface address in table order. */
  lemma SetupGetsFirstAddress(pub: Option<string>, ifaces: seq<Option<seq<NetInfo>>>)
    ensures pub.Some? && pub.value != "" ==> SetupAddress(CollectAddresses(pub, ifaces)) == pub.value
    ensures !(pub.Some? && pub.value != "") ==> SetupAddress(CollectAddresses(pub, ifaces)) == FirstListed4(Flatten(ifaces))
  {
    if !(pub.Some? && pub.value != "") {
      FirstVisited(Addresses([], []), Flatten(ifaces));
    }
  }

  /** `Array.from(set).join(", ")`. */
  function JoinComma(parts: seq<string>): (r: string)
    ensures parts == [] ==> r == ""
    ensures parts != [] ==> StartsWith(r, parts[0])
  {
    if parts == [] then ""
    else if |parts| == 1 then parts[0]
    else parts[0] + ", " + JoinComma(parts[1..])
  }

  /** The banner's address line: the joined set, or "Not available". */
  function AddressLine(members: seq<string>): string
  {
    var joined := JoinComma(members);
    if joined == "" then "Not available" else joined
  }

  /** Each piece after the first as it follows a comma: with one space in front. */
  function SpacedParts(parts: seq<string>): (spaced: seq<string>)
    ensures |spaced| == |parts|
    ensures forall i :: 0 <= i < |parts| ==> spaced[i] == " " + parts[i]
  {
    seq(|parts|, i requires 0 <= i < |parts| => " " + parts[i])
  }

  /** The banner's line holds every member of the set, in insertion order,
      separated by a comma and a space, and reads "Not available" when the
      set is empty or holds only an empty string. With comma-free members,
      splitting the line at its commas gives the first member and then each
      further member behind its space. */
  lemma AddressLineShows(members: seq<string>)
    ensures members == [] || members == [""] ==> AddressLine(members) == "Not available"
    ensures (forall i :: 0 <= i < |members| ==> ',' !in members[i]) && !(members == [] || members == [""]) ==>
      Split(AddressLine(members), ',') == [members[0]] + SpacedParts(members[1..])
  {
    if !(members == [] || members == [""]) {
      var pieces := [members[0]] + SpacedParts(members[1..]);
      JoinCommaAsJoin(members);
      if |members| >= 2 {
        assert JoinComma(members) == members[0] + ", " + JoinComma(members[1..]);
      }
      assert AddressLine(members) == Join(pieces, ',');
      if forall i :: 0 <= i < |members| ==> ',' !in members[i] {
        forall i | 0 <= i < |pieces|
          ensures ',' !in pieces[i]
        {
          if i > 0 {
            assert pieces[i] == " " + members[i];
          }
        }
        SplitJoin(pieces, ',');
      }
    }
  }

  /** ", " between the pieces is a comma separator with the space moved into
      each following piece. */
  lemma {:induction false} JoinCommaAsJoin(parts: seq<string>)
    requires parts != []
    ensures JoinComma(parts) == Join([parts[0]] + SpacedParts(parts[1..]), ',')
    decreases |parts|
  {
    if |parts| >= 2 {
      var rest := [parts[1]] + SpacedParts(parts[2..]);
      JoinCommaAsJoin(parts[1..]);
      assert parts[1..][1..] == parts[2..];
      SpaceFront(rest);
      var pieces := [parts[0]] + SpacedParts(parts[1..]);
      assert pieces[1..] == [" " + rest[0]] + rest[1..];
    }
  }

  /** A space in front of a join goes into its first piece. */
  lemma SpaceFront(parts: seq<string>)
    requires parts != []
    ensures " " + Join(parts, ',') == Join([" " + parts[0]] + parts[1..], ',')
  {
    var moved := [" " + parts[0]] + parts[1..];
    assert moved[1..] == parts[1..];
  }

  // ------------------------------------------------------------ banner

  /** `config.serverType || "Not specified"`. */
  function ServerTypeLine(serverType: Option<string>): (line: string)
    ensures serverType.Some? && serverType.value != "" ==> line == serverType.value
    ensures serverType.None? || serverType.value == "" ==> line == "Not specified"
  {
    if serverType.Some? && serverType.value != "" then serverType.value else "Not specified"
  }

  /** The "Session:" line: the label of the configured type's session, or
      "Not running". A missing server type queries `mineworker_undefined`. */
  function SessionLine(listing: Option<string>, serverType: Option<string>): (line: string)
    ensures !Running(listing, SessionName(Show(serverType))) ==> line == "Not running"
    ensures Running(listing, SessionName(Show(serverType))) ==>
      line == SessionLabel(listing, SessionName(Show(serverType))) && line != ""
  {
    LabelEmptyIff(listing, Show(serverType));
    var shown := SessionLabel(listing, SessionName(Show(serverType)));
    if shown == "" then "Not running" else shown
  }

  // ------------------------------------------------------------ stop / restart

  /** What a `catch` receives: an `Error` carries a message; anything else is
      reported as "Unknown error". */
  datatype Thrown = ErrorObject(message: string) | OtherValue

  function ErrorText(t: Thrown): string
  {
    match t
    case ErrorObject(m) => m
    case OtherValue => "Unknown error"
  }

  /** How a synchronous command ends. */
  datatype Outcome = Done | Raised(reason: Thrown)

  /** How the wait for the session to exit ends: the session exits, the wait
      throws, or the poll goes on for ever. The poll has no time limit, so a
      server that ignores `stop` keeps it waiting. */
  datatype ExitWait = Exited | WaitThrew(reason: Thrown) | NeverExits

  /** The stop command went through and the session exited. */
  predicate Stopped(send: Outcome, wait: ExitWait)
  {
    send.Done? && wait.Exited?
  }

  /** The stop command or the wait threw, so the `catch` runs. */
  predicate StopThrew(send: Outcome, wait: ExitWait)
  {
    send.Raised? || wait.WaitThrew?
  }

  /** The stop command went through and the wait never ends. */
  predicate StopHangs(send: Outcome, wait: ExitWait)
  {
    send.Done? && wait.NeverExits?
  }

  /** How an awaited action's promise settles. A rejection escapes the menu
      and ends the process. */
  datatype Settlement = Resolved | Rejected | Unsettled

  /** How the attached `screen` process exits: a code, or none (a signal). */
  datatype ExitStatus = Code(code: int) | NoCode

  /** What quick setup, load, upload, install and start amounted to. */
  datatype ActionRun =
    | SetupRan(address: string)
    | LoadRan(load: Load.LoadRun)
    | UploadRan(upload: Upload.UploadRun)
    | InstallRan(install: Install.InstallRun)
    | StartRan(start: Start.StartRun)

  /** The externally visible steps of one pass through the menu. */
  datatype Step =
    | SpinnerStart(text: string)
    | SpinnerText(text: string)
    | SpinnerStop(text: string)
    | Exec(command: string)
    | WaitForExit(session: string)
    | LogSuccess(text: string)
    | LogError(text: string)
    | LogInfo(text: string)
    | Outro(text: string)
    | Ran(action: ActionRun)
    | Attach(program: string, args: seq<string>)
    | WaitForEnter
    | Reenter          // `init()` again: the banner and the menu
    | Unhandled        // a rejection that ends the process
    | ExitProcess(code: int)

  const StoppedText := "Server stopped successfully"
  const FailedText := "Failed to stop server"

  /** The command that types `stop` and a newline into the session. */
  function StopCommand(serverType: Option<string>): string
  {
    "screen -S " + SessionName(Show(serverType)) + " -X stuff \"stop\n\""
  }

  /** The words of the stop command, around the session name. */
  function Words(name: string): seq<string>
  {
    ["screen", "-S", name, "-X", "stuff", Typed]
  }

  /** The text typed into the session: `stop`, a newline, in quotes. */
  const Typed := "\"stop\n\""

  /** The words joined with spaces give the command back. */
  lemma JoinWords(name: string)
    ensures Join(Words(name), ' ') == "screen -S " + name + " -X stuff \"stop\n\""
  {
    var w := Words(name);
    var tail := ["-X", "stuff", Typed];
    var t := Join(tail, ' ');
    assert t == "-X stuff " + Typed by {
      assert tail[1..] == ["stuff", Typed] && tail[1..][1..] == [Typed];
      assert Join(tail[1..], ' ') == "stuff" + [' '] + Typed;
    }
    assert w[1..] == ["-S", name] + tail && w[1..][1..] == [name] + tail && w[1..][1..][1..] == tail;
    var j2 := Join(w[1..][1..], ' ');
    assert j2 == name + [' '] + t;
    var head := "screen" + [' '] + "-S" + [' '];
    assert Join(w, ' ') == head + j2;
    assert head == "screen -S ";
    assert [' '] + t == " -X stuff \"stop\n\"";
  }

  /** The shell sees six words: the session argument is the configured type's
      session name, and the text typed into it is `stop` and a newline. */
  lemma StopCommandWords(serverType: Option<string>)
    requires ' ' !in Show(serverType)
    ensures Split(StopCommand(serverType), ' ') == Words(SessionName(Show(serverType)))
  {
    var name := SessionName(Show(serverType));
    var w := Words(name);
    assert ' ' !in name by {
      assert name == Prefix + Show(serverType);
      assert ' ' !in Prefix;
    }
    assert forall i :: 0 <= i < |w| ==> ' ' !in w[i] by {
      assert ' ' !in "screen" && ' ' !in "-S" && ' ' !in "-X" && ' ' !in "stuff" && ' ' !in Typed;
    }
    JoinWords(name);
    SplitJoin(w, ' ');
  }

  /** The steps inside the `try`: the command, then (if it did not throw)
      the wait for the session to exit. */
  function StopAttempt(serverType: Option<string>, send: Outcome): seq<Step>
  {
    [Exec(StopCommand(serverType))] + (if send.Done? then [WaitForExit(SessionName(Show(serverType)))] else [])
  }

  /** The error the `catch` reports: the command's, or else the wait's. */
  function StopError(send: Outcome, wait: ExitWait): Thrown
    requires StopThrew(send, wait)
  {
    if send.Raised? then send.reason else wait.reason
  }

  function StopFailed(send: Outcome, wait: ExitWait): seq<Step>
    requires StopThrew(send, wait)
  {
    [SpinnerStop(FailedText), LogError(ErrorText(StopError(send, wait)))]
  }

  /** The stop choice: the command and the wait, then success or the error
      reported, and back to the menu — unless the wait never ends, which
      leaves the spinner running and the menu closed. */
  function StopSteps(serverType: Option<string>, send: Outcome, wait: ExitWait): (steps: seq<Step>)
    ensures |steps| > 1 && steps[1] == Exec(StopCommand(serverType))
    ensures !StopHangs(send, wait) ==> ReturnsToMenu(steps)
    ensures Reenter in steps <==> !StopHangs(send, wait)
    ensures StopHangs(send, wait) ==> steps[|steps| - 1] == WaitForExit(SessionName(Show(serverType)))
  {
    var attempt := [SpinnerStart("Stopping server...")] + StopAttempt(serverType, send);
    if StopHangs(send, wait) then
      attempt
    else
      var before := attempt
        + (if Stopped(send, wait) then [SpinnerStop(StoppedText), LogSuccess(StoppedText)] else StopFailed(send, wait));
      EndsReentering(before);
      before + [WaitForEnter, Reenter]
  }

  /** After an awaited action: wait for Enter and re-enter the menu, unless
      the action's promise rejected or never settled. */
  function AfterAction(run: ActionRun, settles: Settlement): seq<Step>
  {
    [Ran(run)] + (match settles
                  case Resolved => [WaitForEnter, Reenter]
                  case Rejected => [Unhandled]
                  case Unsettled => [])
  }

  /** How the restart choice settles: never while the wait goes on, as the
      start action's promise once the stop went through, and at once after a
      reported error. */
  function RestartSettles(send: Outcome, wait: ExitWait, settles: Settlement): Settlement
  {
    if StopHangs(send, wait) then Unsettled
    else if Stopped(send, wait) then settles
    else Resolved
  }

  /** The restart choice: stop, and start only if stopping went through;
      `started` is what the start action does when it runs. It comes back to
      the menu exactly when it settles: not while the wait goes on, and not
      when the start fails to resolve. */
  function RestartSteps(serverType: Option<string>, send: Outcome, wait: ExitWait, started: Start.StartRun, settles: Settlement): (steps: seq<Step>)
    ensures RestartSettles(send, wait, settles) == Resolved ==> ReturnsToMenu(steps)
    ensures Reenter in steps <==> RestartSettles(send, wait, settles) == Resolved
    ensures |steps| > 2 && steps[2] == Exec(StopCommand(serverType))
    ensures StopHangs(send, wait) ==> steps[|steps| - 1] == WaitForExit(SessionName(Show(serverType)))
  {
    RestartShape(serverType, send, wait, started, settles);
    RestartHead(serverType, send) + RestartRest(send, wait, started, settles)
  }

  /** The steps of the restart choice up to the end of the stop attempt. */
  function RestartHead(serverType: Option<string>, send: Outcome): seq<Step>
  {
    [SpinnerStart("Restarting server..."), SpinnerText("Stopping server...")] + StopAttempt(serverType, send)
  }

  /** The steps of the restart choice after the stop attempt. */
  function RestartRest(send: Outcome, wait: ExitWait, started: Start.StartRun, settles: Settlement): seq<Step>
  {
    if Stopped(send, wait) then [SpinnerStop(StoppedText)] + AfterAction(StartRan(started), settles)
    else if StopHangs(send, wait) then []
    else StopFailed(send, wait) + [WaitForEnter, Reenter]
  }

  /** The facts `RestartSteps` promises, about a candidate list of steps. */
  predicate RestartShaped(serverType: Option<string>, send: Outcome, wait: ExitWait, settles: Settlement, steps: seq<Step>)
  {
    && |steps| > 2 && steps[2] == Exec(StopCommand(serverType))
    && (RestartSettles(send, wait, settles) == Resolved ==> ReturnsToMenu(steps))
    && (Reenter in steps <==> RestartSettles(send, wait, settles) == Resolved)
    && (StopHangs(send, wait) ==> steps[|steps| - 1] == WaitForExit(SessionName(Show(serverType))))
  }

  lemma RestartShape(serverType: Option<string>, send: Outcome, wait: ExitWait, started: Start.StartRun, settles: Settlement)
    ensures RestartShaped(serverType, send, wait, settles, RestartHead(serverType, send) + RestartRest(send, wait, started, settles))
  {
    var head := RestartHead(serverType, send);
    assert head[2] == Exec(StopCommand(serverType));
    assert Reenter !in head;
    if StopHangs(send, wait) {
      assert RestartRest(send, wait, started, settles) == [];
      assert head + [] == head;
    } else if Stopped(send, wait) {
      RestartShapeStopped(serverType, send, wait, started, settles, head);
    } else {
      RestartShapeFailed(serverType, send, wait, started, settles, head);
    }
  }

  lemma RestartShapeFailed(serverType: Option<string>, send: Outcome, wait: ExitWait, started: Start.StartRun, settles: Settlement, head: seq<Step>)
    requires StopThrew(send, wait)
    requires |head| > 2 && head[2] == Exec(StopCommand(serverType)) && Reenter !in head
    ensures RestartShaped(serverType, send, wait, settles, head + RestartRest(send, wait, started, settles))
  {
    var before := head + StopFailed(send, wait);
    assert Reenter !in before;
    assert head + RestartRest(send, wait, started, settles) == before + [WaitForEnter, Reenter];
    EndsReentering(before);
  }

  lemma RestartShapeStopped(serverType: Option<string>, send: Outcome, wait: ExitWait, started: Start.StartRun, settles: Settlement, head: seq<Step>)
    requires Stopped(send, wait)
    requires |head| > 2 && head[2] == Exec(StopCommand(serverType)) && Reenter !in head
    ensures RestartShaped(serverType, send, wait, settles, head + RestartRest(send, wait, started, settles))
  {
    var before := head + [SpinnerStop(StoppedText), Ran(StartRan(started))];
    assert Reenter !in before;
    match settles
    case Resolved =>
      assert head + RestartRest(send, wait, started, settles) == before + [WaitForEnter, Reenter];
      EndsReentering(before);
    case Rejected =>
      assert head + RestartRest(send, wait, started, settles) == before + [Unhandled];
    case Unsettled =>
      assert head + RestartRest(send, wait, started, settles) == before;
  }

  /** Stopping reports success only when the command went through and the
      session exited, and then only after that wait; when the command or the
      wait throws it reports the first error. A wait that never ends leaves
      the command and the wait as the last steps, with nothing reported. */
  lemma StopReportsAfterExit(serverType: Option<string>, send: Outcome, wait: ExitWait)
    ensures var steps := StopSteps(serverType, send, wait);
      LogSuccess(StoppedText) in steps <==> Stopped(send, wait)
    ensures Stopped(send, wait) ==>
      StopSteps(serverType, send, wait) ==
        [SpinnerStart("Stopping server..."), Exec(StopCommand(serverType)), WaitForExit(SessionName(Show(serverType))),
         SpinnerStop(StoppedText), LogSuccess(StoppedText), WaitForEnter, Reenter]
    ensures StopThrew(send, wait) ==>
      LogError(ErrorText(StopError(send, wait))) in StopSteps(serverType, send, wait)
    ensures send.Raised? ==> WaitForExit(SessionName(Show(serverType))) !in StopSteps(serverType, send, wait)
    ensures StopHangs(send, wait) ==>
      StopSteps(serverType, send, wait) ==
        [SpinnerStart("Stopping server..."), Exec(StopCommand(serverType)), WaitForExit(SessionName(Show(serverType)))]
  {
    if StopThrew(send, wait) {
      StopFails(serverType, send, wait);
    } else if Stopped(send, wait) {
      StopSucceeds(serverType, send, wait);
    } else {
      StopHangShape(serverType, send, wait);
    }
  }

  lemma StopSucceeds(serverType: Option<string>, send: Outcome, wait: ExitWait)
    requires Stopped(send, wait)
    ensures StopSteps(serverType, send, wait) ==
      [SpinnerStart("Stopping server..."), Exec(StopCommand(serverType)), WaitForExit(SessionName(Show(serverType))),
       SpinnerStop(StoppedText), LogSuccess(StoppedText), WaitForEnter, Reenter]
  {
    var attempt := StopAttempt(serverType, send);
    var stopped := [SpinnerStop(StoppedText), LogSuccess(StoppedText)];
    assert attempt == [Exec(StopCommand(serverType)), WaitForExit(SessionName(Show(serverType)))];
    assert StopSteps(serverType, send, wait) == [SpinnerStart("Stopping server...")] + attempt + stopped + [WaitForEnter, Reenter];
    Flatten7(SpinnerStart("Stopping server..."), attempt, stopped, [WaitForEnter, Reenter]);
  }

  lemma StopHangShape(serverType: Option<string>, send: Outcome, wait: ExitWait)
    requires StopHangs(send, wait)
    ensures StopSteps(serverType, send, wait) ==
      [SpinnerStart("Stopping server..."), Exec(StopCommand(serverType)), WaitForExit(SessionName(Show(serverType)))]
  {
    assert StopAttempt(serverType, send) == [Exec(StopCommand(serverType)), WaitForExit(SessionName(Show(serverType)))];
  }

  lemma Flatten7(a: Step, b: seq<Step>, c: seq<Step>, d: seq<Step>)
    requires |b| == 2 && |c| == 2 && |d| == 2
    ensures [a] + b + c + d == [a, b[0], b[1], c[0], c[1], d[0], d[1]]
  {
  }

  /** A stop whose command or wait threw: the steps, which report the error
      and never success. */
  lemma StopFails(serverType: Option<string>, send: Outcome, wait: ExitWait)
    requires StopThrew(send, wait)
    ensures LogSuccess(StoppedText) !in StopSteps(serverType, send, wait)
    ensures LogError(ErrorText(StopError(send, wait))) in StopSteps(serverType, send, wait)
    ensures send.Raised? ==> WaitForExit(SessionName(Show(serverType))) !in StopSteps(serverType, send, wait)
  {
    var start := SpinnerStart("Stopping server...");
    AttemptShows(serverType, send);
    FailedShows(send, wait, SessionName(Show(serverType)));
    assert StopSteps(serverType, send, wait) == [start] + StopAttempt(serverType, send) + StopFailed(send, wait) + [WaitForEnter, Reenter];
  }

  lemma AttemptShows(serverType: Option<string>, send: Outcome)
    ensures LogSuccess(StoppedText) !in StopAttempt(serverType, send)
    ensures send.Raised? ==> WaitForExit(SessionName(Show(serverType))) !in StopAttempt(serverType, send)
  {
  }

  lemma FailedShows(send: Outcome, wait: ExitWait, name: string)
    requires StopThrew(send, wait)
    ensures LogSuccess(StoppedText) !in StopFailed(send, wait)
    ensures LogError(ErrorText(StopError(send, wait))) in StopFailed(send, wait)
    ensures WaitForExit(name) !in StopFailed(send, wait)
  {
  }

  /** Restart runs the start action exactly when the stop went through; when
      the command or the wait throws it reports the error and returns to the
      menu without starting; a wait that never ends leaves the command and
      the wait as the last steps. */
  lemma RestartStartsOnlyAfterStop(serverType: Option<string>, send: Outcome, wait: ExitWait, started: Start.StartRun, settles: Settlement)
    ensures var steps := RestartSteps(serverType, send, wait, started, settles);
      (exists i :: 0 <= i < |steps| && steps[i].Ran?) <==> Stopped(send, wait)
    ensures Stopped(send, wait) ==>
      Ran(StartRan(started)) in RestartSteps(serverType, send, wait, started, settles)
    ensures StopThrew(send, wait) ==>
      var steps := RestartSteps(serverType, send, wait, started, settles);
      |steps| >= 2 && steps[|steps| - 2..] == [WaitForEnter, Reenter]
      && LogError(ErrorText(StopError(send, wait))) in steps
    ensures StopHangs(send, wait) ==>
      RestartSteps(serverType, send, wait, started, settles) ==
        [SpinnerStart("Restarting server..."), SpinnerText("Stopping server..."),
         Exec(StopCommand(serverType)), WaitForExit(SessionName(Show(serverType)))]
  {
    if Stopped(send, wait) {
      RestartRuns(serverType, send, wait, started, settles);
    } else if StopThrew(send, wait) {
      RestartFails(serverType, send, wait, started, settles);
    } else {
      RestartHangShape(serverType, send, wait, started, settles);
    }
  }

  lemma RestartHangShape(serverType: Option<string>, send: Outcome, wait: ExitWait, started: Start.StartRun, settles: Settlement)
    requires StopHangs(send, wait)
    ensures RestartSteps(serverType, send, wait, started, settles) ==
      [SpinnerStart("Restarting server..."), SpinnerText("Stopping server..."),
       Exec(StopCommand(serverType)), WaitForExit(SessionName(Show(serverType)))]
  {
    assert RestartRest(send, wait, started, settles) == [];
    assert StopAttempt(serverType, send) == [Exec(StopCommand(serverType)), WaitForExit(SessionName(Show(serverType)))];
  }

  lemma RestartRuns(serverType: Option<string>, send: Outcome, wait: ExitWait, started: Start.StartRun, settles: Settlement)
    requires Stopped(send, wait)
    ensures RestartSteps(serverType, send, wait, started, settles)[5] == Ran(StartRan(started))
  {
    assert |RestartHead(serverType, send)| == 4;
    assert RestartRest(send, wait, started, settles)[1] == Ran(StartRan(started));
  }

  lemma RestartFails(serverType: Option<string>, send: Outcome, wait: ExitWait, started: Start.StartRun, settles: Settlement)
    requires StopThrew(send, wait)
    ensures var steps := RestartSteps(serverType, send, wait, started, settles);
      && (forall i :: 0 <= i < |steps| ==> !steps[i].Ran?)
      && |steps| >= 2 && steps[|steps| - 2..] == [WaitForEnter, Reenter]
      && LogError(ErrorText(StopError(send, wait))) in steps
  {
    var e := StopError(send, wait);
    var head := RestartHead(serverType, send);
    assert RestartRest(send, wait, started, settles) == [SpinnerStop(FailedText), LogError(ErrorText(e)), WaitForEnter, Reenter];
    assert forall i :: 0 <= i < |head| ==> !head[i].Ran?;
    FailedTail(head, e);
  }

  lemma FailedTail(head: seq<Step>, e: Thrown)
    requires forall i :: 0 <= i < |head| ==> !head[i].Ran?
    ensures var steps := head + [SpinnerStop(FailedText), LogError(ErrorText(e)), WaitForEnter, Reenter];
      && (forall i :: 0 <= i < |steps| ==> !steps[i].Ran?)
      && |steps| >= 2 && steps[|steps| - 2..] == [WaitForEnter, Reenter]
      && LogError(ErrorText(e)) in steps
  {
    var steps := head + [SpinnerStop(FailedText), LogError(ErrorText(e)), WaitForEnter, Reenter];
    assert forall i :: |head| <= i < |steps| ==> steps[i] == [SpinnerStop(FailedText), LogError(ErrorText(e)), WaitForEnter, Reenter][i - |head|];
    assert steps[|steps| - 3] == LogError(ErrorText(e));
  }

  // ------------------------------------------------------------ the menu

  /** The menu's options, and `Dismissed` for a cancelled selection. */
  datatype Choice =
    | QuickSetup | LoadWorld | UploadWorld | InstallJar | StartServer
    | StopServer | RestartServer | CheckStatus | OpenConsole | Exit
    | Dismissed

  datatype MenuEnv = MenuEnv(
    worldPath: string,               // the world directory every action is given
    choice: Choice,
    serverType: Option<string>,      // from the config record; None when absent
    publicIp: Option<string>,        // what the public-IP lookup returned
    interfaces: seq<Option<seq<NetInfo>>>, // the network interface table
    load: Load.LoadEnv,
    upload: Upload.UploadEnv,
    install: Install.InstallEnv,
    start: Start.StartEnv,
    settles: Settlement,             // how quick setup's promise settles
    served: Settlement,              // how a spawned server's output stream ends
    send: Outcome,                   // the stop command
    wait: ExitWait,                  // the wait for the session to exit
    attachExit: Option<ExitStatus>)  // None while the console stays attached

  function StatusText(st: ExitStatus): string
  {
    match st
    case Code(n) => Decimal.IntToString(n)
    case NoCode => "null"
  }

  /** How loading settles: a rejected request or a throwing delete rejects,
      a stream that never finishes leaves it pending, and every other
      outcome returns. */
  function LoadSettles(o: Load.LoadOutcome): Settlement
  {
    match o
    case Crashed => Rejected
    case Waiting => Unsettled
    case _ => Resolved
  }

  /** How installing settles: a throwing file-system call rejects, an open
      prompt leaves it pending, and every other outcome returns. Uploading
      catches its own errors and always returns. */
  function InstallSettles(o: Install.InstallOutcome): Settlement
  {
    match o
    case Crashed => Rejected
    case Waiting => Unsettled
    case _ => Resolved
  }

  /** How starting settles: every refusal, and a server found running,
      returns at once; a record that cannot be read because the read throws
      rejects; a spawned server's action returns once the server's output
      stream ends (`served`). */
  function StartSettles(run: Start.StartRun, served: Settlement): Settlement
  {
    match run.outcome
    case ConfigThrew => Rejected
    case Spawned(_, _) => served
    case _ => Resolved
  }

  /** The start action run on the console's world directory. */
  function StartRunOf(env: MenuEnv): Start.StartRun
  {
    Start.StartServer(env.start.(worldPath := env.worldPath))
  }

  /** How the chosen choice's work settles: an awaited action as its
      promise does, stop and restart not at all while the wait for the
      session's exit goes on, and the choices that await nothing at once.
      `corrected` selects the install and upload actions as evidently
      intended instead of as written. */
  function Settles(env: MenuEnv, corrected: bool): Settlement
  {
    match env.choice
    case LoadWorld => LoadSettles(Load.LoadWorld(env.load.(worldPath := env.worldPath)).outcome)
    case InstallJar => InstallSettles(Install.RunInstall(env.install.(worldPath := env.worldPath), corrected).outcome)
    case UploadWorld => Resolved
    case QuickSetup => env.settles
    case StartServer => StartSettles(StartRunOf(env), env.served)
    case StopServer => if StopHangs(env.send, env.wait) then Unsettled else Resolved
    case RestartServer => RestartSettles(env.send, env.wait, StartSettles(StartRunOf(env), env.served))
    case _ => Resolved
  }

  /** One pass through the menu for the choice made (`corrected` as for
      `Settles`). Every choice but exit and the console — and a dismissed
      menu — re-enters the menu exactly when its work has resolved, and then
      by waiting for Enter at the end and nowhere else. */
  function Menu(env: MenuEnv, corrected: bool): (steps: seq<Step>)
    ensures |steps| >= 1
    ensures env.choice !in {OpenConsole, Exit, Dismissed} && Settles(env, corrected) == Resolved ==> ReturnsToMenu(steps)
    ensures env.choice !in {OpenConsole, Exit, Dismissed} ==> (Reenter in steps <==> Settles(env, corrected) == Resolved)
  {
    match env.choice
    case QuickSetup =>
      AfterActionReturns(SetupRan(SetupAddress(CollectAddresses(env.publicIp, env.interfaces))));
      AfterAction(SetupRan(SetupAddress(CollectAddresses(env.publicIp, env.interfaces))), env.settles)
    case LoadWorld =>
      var run := Load.LoadWorld(env.load.(worldPath := env.worldPath));
      AfterActionReturns(LoadRan(run));
      AfterAction(LoadRan(run), LoadSettles(run.outcome))
    case UploadWorld =>
      AfterActionReturns(UploadRan(Upload.RunUpload(env.upload, corrected)));
      AfterAction(UploadRan(Upload.RunUpload(env.upload, corrected)), Resolved)
    case InstallJar =>
      var run := Install.RunInstall(env.install.(worldPath := env.worldPath), corrected);
      AfterActionReturns(InstallRan(run));
      AfterAction(InstallRan(run), InstallSettles(run.outcome))
    case StartServer =>
      AfterActionReturns(StartRan(StartRunOf(env)));
      AfterAction(StartRan(StartRunOf(env)), StartSettles(StartRunOf(env), env.served))
    case StopServer => StopSteps(env.serverType, env.send, env.wait)
    case RestartServer =>
      RestartSteps(env.serverType, env.send, env.wait, StartRunOf(env), StartSettles(StartRunOf(env), env.served))
    case CheckStatus =>
      EndsReentering([Outro("Checking server status...")]);
      [Outro("Checking server status...")] + [WaitForEnter, Reenter]
    case OpenConsole =>
      [Attach("screen", ["-r", "mineworker_forge"])]
      + (match env.attachExit
         case None => []
         case Some(st) => [LogInfo("Screen session exited with code " + StatusText(st)), WaitForEnter, Reenter])
    case Exit => [Outro("Exiting the Minecraft Worker Node. Goodbye!"), ExitProcess(0)]
    case Dismissed => [LogError("Invalid action selected.")]
  }

  /** The steps end by waiting for Enter and re-entering the menu, and
      re-enter nowhere before that. */
  predicate ReturnsToMenu(steps: seq<Step>)
  {
    |steps| >= 2 && steps[|steps| - 2..] == [WaitForEnter, Reenter]
    && Reenter !in steps[..|steps| - 1]
  }

  /** Steps free of re-entry, then waiting for Enter and re-entering. */
  lemma EndsReentering(before: seq<Step>)
    requires Reenter !in before
    ensures ReturnsToMenu(before + [WaitForEnter, Reenter])
    ensures Reenter in before + [WaitForEnter, Reenter]
  {
    var steps := before + [WaitForEnter, Reenter];
    assert steps[..|steps| - 1] == before + [WaitForEnter];
  }

  lemma AfterActionReturns(run: ActionRun)
    ensures ReturnsToMenu(AfterAction(run, Resolved))
    ensures forall settles :: Reenter in AfterAction(run, settles) <==> settles == Resolved
  {
    EndsReentering([Ran(run)]);
    assert AfterAction(run, Rejected) == [Ran(run), Unhandled];
    assert AfterAction(run, Unsettled) == [Ran(run)];
  }

  /** An action whose promise rejects — a load whose request fails, an
      install whose directory cannot be read — ends the process instead of
      returning to the menu; one that never settles leaves the menu closed. */
  lemma RejectionEndsProcess(env: MenuEnv, corrected: bool)
    requires env.choice in {QuickSetup, LoadWorld, UploadWorld, InstallJar, StartServer}
    requires Settles(env, corrected) != Resolved
    ensures Reenter !in Menu(env, corrected)
    ensures Settles(env, corrected) == Rejected ==> Menu(env, corrected)[|Menu(env, corrected)| - 1] == Unhandled
    ensures Settles(env, corrected) == Unsettled ==> |Menu(env, corrected)| == 1 && Menu(env, corrected)[0].Ran?
  {
  }

  /** Starting never ends the process on a refusal: a missing world
      directory or config file, an unreadable or unsupported record and a
      server already running all come back to the menu. Only a config read
      that throws, or a spawned server whose output stream fails, ends the
      process. */
  lemma RefusedStartReturns(env: MenuEnv, corrected: bool)
    requires env.choice == StartServer
    ensures var o := StartRunOf(env).outcome;
      !o.Spawned? && !o.ConfigThrew? ==> ReturnsToMenu(Menu(env, corrected))
    ensures var o := StartRunOf(env).outcome;
      Unhandled in Menu(env, corrected) <==> o.ConfigThrew? || (o.Spawned? && env.served == Rejected)
  {
    var run := StartRunOf(env);
    AfterActionReturns(StartRan(run));
    assert AfterAction(StartRan(run), Rejected) == [Ran(StartRan(run)), Unhandled];
  }

  /** A stop or restart whose wait for the session's exit never ends leaves
      the menu closed: that wait is the last step, and neither success nor
      an error is reported. */
  lemma EndlessWaitKeepsMenuClosed(env: MenuEnv, corrected: bool)
    requires env.choice in {StopServer, RestartServer}
    requires env.send.Done? && env.wait.NeverExits?
    ensures Settles(env, corrected) == Unsettled
    ensures Reenter !in Menu(env, corrected)
    ensures Menu(env, corrected)[|Menu(env, corrected)| - 1] == WaitForExit(SessionName(Show(env.serverType)))
    ensures forall i :: 0 <= i < |Menu(env, corrected)| ==> !Menu(env, corrected)[i].LogSuccess? && !Menu(env, corrected)[i].LogError?
  {
    if env.choice == StopServer {
      StopReportsAfterExit(env.serverType, env.send, env.wait);
    } else {
      RestartStartsOnlyAfterStop(env.serverType, env.send, env.wait, StartRunOf(env), StartSettles(StartRunOf(env), env.served));
    }
  }

  /** Exit ends the process with code 0 without waiting or re-entering. */
  lemma ExitTerminates(env: MenuEnv, corrected: bool)
    requires env.choice == Exit
    ensures Menu(env, corrected)[|Menu(env, corrected)| - 1] == ExitProcess(0)
    ensures Reenter !in Menu(env, corrected) && WaitForEnter !in Menu(env, corrected)
  {
  }

  /** The console attaches to `mineworker_forge` whatever the configured
      type, and comes back to the menu only once that session exits. */
  lemma ConsoleAttachesForge(env: MenuEnv, corrected: bool, other: Option<string>)
    requires env.choice == OpenConsole
    ensures Menu(env, corrected)[0] == Attach("screen", ["-r", SessionName("forge")])
    ensures Menu(env.(serverType := other), corrected) == Menu(env, corrected)
    ensures Reenter in Menu(env, corrected) <==> env.attachExit.Some?
  {
    assert SessionName("forge") == "mineworker_forge";
  }

  /** Stop and restart address the session of the configured type — the
      session the banner's label reports on. */
  lemma StopTargetsConfiguredSession(env: MenuEnv, corrected: bool)
    requires env.choice in {StopServer, RestartServer}
    ensures Exec(StopCommand(env.serverType)) in Menu(env, corrected)
    ensures env.send.Done? ==> WaitForExit(SessionName(Show(env.serverType))) in Menu(env, corrected)
  {
    var steps := Menu(env, corrected);
    var k := if env.choice == StopServer then 1 else 2;
    assert steps[k] == Exec(StopCommand(env.serverType));
    if env.send.Done? {
      assert steps[k + 1] == WaitForExit(SessionName(Show(env.serverType)));
    }
  }

  /** Quick setup from the menu is handed the public IP when the lookup gave
      one, and otherwise the first non-internal IPv4 address of the
      interface table. */
  lemma MenuSetupAddress(env: MenuEnv, corrected: bool)
    requires env.choice == QuickSetup
    ensures env.publicIp.Some? && env.publicIp.value != "" ==>
      Menu(env, corrected)[0] == Ran(SetupRan(env.publicIp.value))
    ensures !(env.publicIp.Some? && env.publicIp.value != "") ==>
      Menu(env, corrected)[0] == Ran(SetupRan(FirstListed4(Flatten(env.interfaces))))
  {
    SetupGetsFirstAddress(env.publicIp, env.interfaces);
  }

  /** Load, install, start and restart are handed the console's world
      directory; the menu as written runs the install and upload actions as
      written. */
  lemma ActionsShareWorld(env: MenuEnv)
    ensures env.choice == LoadWorld ==>
      Menu(env, false)[0] == Ran(LoadRan(Load.LoadWorld(env.load.(worldPath := env.worldPath))))
    ensures env.choice == StartServer ==>
      Menu(env, false)[0] == Ran(StartRan(Start.StartServer(env.start.(worldPath := env.worldPath))))
    ensures env.choice == InstallJar ==>
      Menu(env, false)[0] == Ran(InstallRan(Install.InstallServerJarAsWritten(env.install.(worldPath := env.worldPath))))
      && Menu(env, true)[0] == Ran(InstallRan(Install.InstallServerJarCorrected(env.install.(worldPath := env.worldPath))))
    ensures env.choice == UploadWorld ==>
      Menu(env, false)[0] == Ran(UploadRan(Upload.UploadAsWritten(env.upload)))
      && Menu(env, true)[0] == Ran(UploadRan(Upload.UploadCorrected(env.upload)))
    ensures env.choice == RestartServer && Stopped(env.send, env.wait) ==>
      Ran(StartRan(Start.StartServer(env.start.(worldPath := env.worldPath)))) in Menu(env, false)
  {
    if env.choice == RestartServer {
      RestartStartsOnlyAfterStop(env.serverType, env.send, env.wait, StartRunOf(env), StartSettles(StartRunOf(env), env.served));
    }
  }
}

=== FILE: decimal.dfy ===
/** Numbers as text: how a JavaScript template literal prints an integer, and
    how `parseInt` reads one back. */
module Decimal {
  import opened JsText

  predicate IsDigit(c: char)
  {
    '0' <= c <= '9'
  }

  predicate AllDigits(s: string)
  {
    forall i :: 0 <= i < |s| ==> IsDigit(s[i])
  }

  function DigitValue(c: char): nat
    requires IsDigit(c)
  {
    c as int - '0' as int
  }

  function DigitChar(d: nat): (c: char)
    requires d < 10
    ensures IsDigit(c) && DigitValue(c) == d
  {
    ('0' as int + d) as char
  }

  /** The number a string of decimal digits denotes. */
  function DigitsValue(s: string): nat
    requires AllDigits(s)
  {
    if |s| == 0 then 0 else DigitsValue(s[..|s| - 1]) * 10 + DigitValue(s[|s| - 1])
  }

  /** `${n}` for a non-negative integer: the shortest decimal rendering. */
  function NatToString(n: nat): (s: string)
    ensures |s| >= 1 && AllDigits(s)
    ensures s[0] == '0' ==> n == 0 && |s| == 1
    ensures DigitsValue(s) == n
    decreases n
  {
    if n < 10 then [DigitChar(n)]
    else
      var s := NatToString(n / 10) + [DigitChar(n % 10)];
      assert s[..|s| - 1] == NatToString(n / 10);
      s
  }

  /** `${i}` for any integer: a minus sign before the magnitude when negative. */
  function IntToString(i: int): string
  {
    if i < 0 then "-" + NatToString(-i) else NatToString(i)
  }

  /** Length of the run of decimal digits at the front of `s`. */
  function DigitRun(s: string): (k: nat)
    ensures k <= |s| && AllDigits(s[..k])
    ensures k < |s| ==> !IsDigit(s[k])
  {
    if |s| > 0 && IsDigit(s[0]) then
      var k := 1 + DigitRun(s[1..]);
      assert forall i :: 1 <= i < k ==> s[..k][i] == s[1..][..k - 1][i - 1];
      k
    else 0
  }

  /** The digit run of a rendered number stops exactly where the rendering ends. */
  lemma NatToStringRun(n: nat, rest: string)
    requires rest == [] || !IsDigit(rest[0])
    ensures DigitRun(NatToString(n) + rest) == |NatToString(n)|
  {
    var s := NatToString(n);
    DigitRunOf(s, rest);
  }

  lemma {:induction false} DigitRunOf(s: string, rest: string)
    requires AllDigits(s)
    requires rest == [] || !IsDigit(rest[0])
    ensures DigitRun(s + rest) == |s|
    decreases |s|
  {
    if |s| == 0 {
      assert s + rest == rest;
    } else {
      assert (s + rest)[1..] == s[1..] + rest;
      DigitRunOf(s[1..], rest);
    }
  }

  predicate IsHexDigit(c: char)
  {
    IsDigit(c) || 'a' <= c <= 'f' || 'A' <= c <= 'F'
  }

  function HexValue(c: char): (v: nat)
    requires IsHexDigit(c)
    ensures v < 16
  {
    if IsDigit(c) then DigitValue(c)
    else if 'a' <= c <= 'f' then c as int - 'a' as int + 10
    else c as int - 'A' as int + 10
  }

  function Pow16(n: nat): nat
  {
    if n == 0 then 1 else 16 * Pow16(n - 1)
  }

  /** The number a string of hexadecimal digits denotes. */
  function HexDigitsValue(s: string): (v: nat)
    requires forall i :: 0 <= i < |s| ==> IsHexDigit(s[i])
    ensures v < Pow16(|s|)
  {
    if |s| == 0 then 0 else HexDigitsValue(s[..|s| - 1]) * 16 + HexValue(s[|s| - 1])
  }

  /** Length of the run of hexadecimal digits at the front of `s`. */
  function HexRun(s: string): (k: nat)
    ensures k <= |s|
    ensures forall i :: 0 <= i < k ==> IsHexDigit(s[i])
  {
    if |s| > 0 && IsHexDigit(s[0]) then 1 + HexRun(s[1..]) else 0
  }

  /** JavaScript's `parseInt(s)` with no radix: leading white space is skipped,
      then an optional sign, then either `0x`/`0X` and hexadecimal digits or
      decimal digits, as many as there are; anything after them is ignored.
      `None` stands for `NaN` (no digit where one was needed). */
  function ParseInt(s: string): (r: Option<int>)
    ensures r.Some? ==> exists i :: 0 <= i < |s| && IsHexDigit(s[i])
  {
    var t := s[LeadingSpace(s)..];
    var negative := |t| > 0 && t[0] == '-';
    var u := if |t| > 0 && (t[0] == '-' || t[0] == '+') then t[1..] else t;
    assert forall i :: 0 <= i < |u| ==> u[i] == s[|s| - |u| + i];
    var sign := if negative then -1 else 1;
    if |u| >= 2 && u[0] == '0' && (u[1] == 'x' || u[1] == 'X') then
      var h := HexRun(u[2..]);
      if h == 0 then None
      else
        assert IsHexDigit(u[2]);
        Some(sign * HexDigitsValue(u[2..][..h]))
    else
      var k := DigitRun(u);
      if k == 0 then None
      else
        assert IsDigit(u[..k][0]);
        Some(sign * DigitsValue(u[..k]))
  }

  /** `parseInt` reads back any rendered non-negative integer, and stops at
      the first character after it that is not a digit (an `x` right after a
      lone `0` would start a hexadecimal literal instead). */
  lemma ParseIntRendered(n: nat, rest: string)
    requires rest == [] || (!IsDigit(rest[0]) && rest[0] != 'x' && rest[0] != 'X')
    ensures ParseInt(NatToString(n) + rest) == Some(n)
  {
    var d := NatToString(n);
    var s := d + rest;
    assert s[0] == d[0];
    assert LeadingSpace(s) == 0;
    assert s[0..] == s;
    if |s| >= 2 {
      if |d| >= 2 {
        assert s[1] == d[1];
      } else {
        assert s[1] == rest[0];
      }
    }
    NatToStringRun(n, rest);
    assert s[..|d|] == d;
  }
}

=== FILE: install.dfy ===
/** Installing a server into a world directory: the server-type gate, the
    Forge installer lookup and prompt, the memory prompt, and the three files
    written afterwards (`user_jvm_args.txt`, a rewritten `run.sh` and the
    config record). Prompts are modelled as the sequence of things the user
    does at them; the installer process, the directory listing and the file
    system are inputs. */
module Install {
  import opened JsText
  import opened Decimal
  import opened ConfigFile
  import Session

  // -------------------------------------------------------------- prompts

  /** What a prompt resolves to: the submitted text, or clack's cancel symbol. */
  datatype Answer = Submitted(text: string) | Cancelled

  /** `String(symbol)` for the cancel symbol: `.toString()` on a cancelled
      prompt's value yields this text, not an empty string. */
  const CancelText := "Symbol(clack:cancel)"

  /** `answer.toString()`. */
  function AnswerText(a: Answer): (t: string)
    ensures t != ""  || a.Submitted?
  {
    match a
    case Submitted(t) => t
    case Cancelled => CancelText
  }

  /** One thing the user does at a prompt: submit a line, or interrupt it. */
  datatype Attempt = Enter(line: string) | Interrupt

  /** The prompts' `validate` callbacks. */
  datatype Validator = InstallerName(present: set<string>) | MemorySize

  /** The problem message a validator reports for a submitted value, or `None`
      when it accepts the value. `present` holds the names that exist under
      the world directory. */
  function Problem(v: Validator, value: string): Option<string>
  {
    match v
    case InstallerName(present) =>
      if value == "" then Some("Forge installer JAR file name cannot be empty.")
      else if value !in present then Some("File " + value + " does not exist in the world directory.")
      else None
    case MemorySize =>
      if value == "" then Some("Memory allocation cannot be empty.")
      else if !MemoryPattern(value) then Some("Memory allocation must be in the format <number>[M|G].")
      else None
  }

  /** A text prompt: a rejected line shows its problem and the prompt stays;
      the first accepted line resolves it, an interrupt cancels it. `None`
      means the prompt is still waiting when the attempts run out. */
  function Prompt(attempts: seq<Attempt>, v: Validator): (r: Option<Answer>)
    ensures r == Some(Cancelled) ==> Interrupt in attempts
    ensures r.Some? && r.value.Submitted? ==>
      Problem(v, r.value.text).None? && Enter(r.value.text) in attempts
    ensures r.None? ==> forall i :: 0 <= i < |attempts| ==> attempts[i].Enter? && Problem(v, attempts[i].line).Some?
  {
    if |attempts| == 0 then None
    else match attempts[0]
      case Interrupt => Some(Cancelled)
      case Enter(line) =>
        if Problem(v, line).None? then Some(Submitted(line))
        else
          var r := Prompt(attempts[1..], v);
          assert forall a :: a in attempts[1..] ==> a in attempts;
          assert forall i :: 1 <= i < |attempts| ==> attempts[i] == attempts[1..][i - 1];
          r
  }

  /** The prompt resolves to the first attempt that is an interrupt or an
      acceptable line, and every earlier line was refused. */
  lemma {:induction false} PromptFirstResolving(attempts: seq<Attempt>, v: Validator, k: nat)
    requires k < |attempts|
    requires attempts[k] == Interrupt || (attempts[k].Enter? && Problem(v, attempts[k].line).None?)
    requires forall i :: 0 <= i < k ==> attempts[i].Enter? && Problem(v, attempts[i].line).Some?
    ensures Prompt(attempts, v) == Some(if attempts[k].Interrupt? then Cancelled else Submitted(attempts[k].line))
  {
    if k > 0 {
      PromptFirstResolving(attempts[1..], v, k - 1);
    }
  }

  // ----------------------------------------------------------- validators

  /** `/^\d+[MG]$/`: one or more ASCII digits and then exactly one `M` or `G`. */
  predicate MemoryPattern(s: string)
  {
    |s| >= 2 && (forall i :: 0 <= i < |s| - 1 ==> IsDigit(s[i])) && (s[|s| - 1] == 'M' || s[|s| - 1] == 'G')
  }

  /** A size the pattern accepts fits on one line. */
  lemma PatternOneLine(s: string)
    requires MemoryPattern(s)
    ensures '\n' !in s
  {
    forall i | 0 <= i < |s|
      ensures s[i] != '\n'
    {
      if i < |s| - 1 { assert IsDigit(s[i]); }
    }
  }

  /** Scans a memory string the way the regular expression does. */
  method MatchMemory(s: string) returns (ok: bool)
    ensures ok <==> MemoryPattern(s)
  {
    if |s| < 2 || (s[|s| - 1] != 'M' && s[|s| - 1] != 'G') {
      return false;
    }
    var i := 0;
    while i < |s| - 1
      invariant 0 <= i <= |s| - 1
      invariant forall j :: 0 <= j < i ==> IsDigit(s[j])
    {
      if !IsDigit(s[i]) {
        return false;
      }
      i := i + 1;
    }
    return true;
  }

  /** The memory validator accepts exactly the strings of the pattern; the
      empty string is refused with its own message. */
  lemma MemoryAccepted(value: string)
    ensures Problem(MemorySize, value).None? <==> MemoryPattern(value)
    ensures value == "" ==> Problem(MemorySize, value) == Some("Memory allocation cannot be empty.")
  {
  }

  /** A valid memory string survives `trim` and JSON quoting unchanged. */
  lemma MemoryVerbatim(m: string)
    requires MemoryPattern(m)
    ensures Trim(m) == m
    ensures Escape(m) == m
  {
    assert forall i :: 0 <= i < |m| ==> '0' <= m[i] <= 'Z';
    EscapePlain(m);
  }

  /** Characters that JSON.stringify writes as themselves. */
  predicate Plain(c: char)
  {
    c >= ' ' && c != '"' && c != '\\'
  }

  lemma {:induction false} EscapePlain(s: string)
    requires forall i :: 0 <= i < |s| ==> Plain(s[i])
    ensures Escape(s) == s
    decreases |s|
  {
    if |s| > 0 {
      EscapePlain(s[1..]);
      assert [s[0]] + s[1..] == s;
    }
  }

  /** The installer names the validator accepts: non-empty names present in
      the world directory. */
  lemma InstallerAccepted(present: set<string>, value: string)
    ensures Problem(InstallerName(present), value).None? <==> value != "" && value in present
  {
  }

  // ------------------------------------------------------------ generated

  /** The installer the directory listing suggests: the first entry whose
      lower-cased name contains `forge` and whose name ends in `installer.jar`. */
  function FindInstaller(entries: seq<string>): (r: Option<string>)
    ensures r.Some? ==> r.value in entries && Contains(LowerAscii(r.value), "forge") && EndsWith(r.value, "installer.jar")
    ensures r.None? <==> forall i :: 0 <= i < |entries| ==> !IsInstaller(entries[i])
  {
    if |entries| == 0 then None
    else if IsInstaller(entries[0]) then Some(entries[0])
    else
      var r := FindInstaller(entries[1..]);
      assert forall i :: 1 <= i < |entries| ==> entries[i] == entries[1..][i - 1];
      r
  }

  /** The name test of `FindInstaller`. JavaScript's `toLowerCase` is full
      Unicode lower-casing, but the only characters it maps to any of the
      letters of `forge` are those letters and their ASCII capitals (the
      non-ASCII characters that lower-case into ASCII become `i` or `k`), so
      for this needle the ASCII lower-casing gives the same answer. */
  predicate IsInstaller(name: string)
  {
    Contains(LowerAscii(name), "forge") && EndsWith(name, "installer.jar")
  }

  /** `FindInstaller` picks the first matching entry and no other. */
  lemma {:induction false} FindInstallerFirst(entries: seq<string>, k: nat)
    requires k < |entries| && IsInstaller(entries[k])
    requires forall i :: 0 <= i < k ==> !IsInstaller(entries[i])
    ensures FindInstaller(entries) == Some(entries[k])
  {
    if k > 0 {
      FindInstallerFirst(entries[1..], k - 1);
    }
  }

  /** The placeholder the installer prompt shows. */
  function Placeholder(entries: seq<string>): string
  {
    match FindInstaller(entries)
    case Some(name) => if name == "" then "forge-installer.jar" else name
    case None => "forge-installer.jar"
  }

  /** `user_jvm_args.txt`: maximum and initial heap, one flag per line. */
  function JvmArgs(memory: string): string
  {
    "-Xmx" + memory + "\n-Xms" + memory + "\n"
  }

  /** The file holds exactly the two heap flags for `memory`, each on its own
      line, and nothing after the final line break. */
  lemma JvmArgsLines(memory: string)
    requires '\n' !in memory
    ensures Split(JvmArgs(memory), '\n') == ["-Xmx" + memory, "-Xms" + memory, ""]
  {
    var a, b := "-Xmx" + memory, "-Xms" + memory;
    var parts := [a, b, ""];
    FlagLine("-Xmx", memory);
    FlagLine("-Xms", memory);
    assert parts[1..] == [b, ""] && parts[1..][1..] == [""];
    assert Join(parts[1..], '\n') == b + ['\n'] + "";
    assert Join(parts, '\n') == a + ['\n'] + (b + ['\n']);
    assert "\n-Xms" == ['\n'] + "-Xms";
    assert JvmArgs(memory) == a + ['\n'] + (b + ['\n']);
    SplitJoin(parts, '\n');
  }

  lemma FlagLine(flag: string, memory: string)
    requires '\n' !in flag && '\n' !in memory
    ensures '\n' !in flag + memory
  {
    forall i | 0 <= i < |flag + memory|
      ensures (flag + memory)[i] != '\n'
    {
      if i < |flag| { assert (flag + memory)[i] == flag[i]; } else { assert (flag + memory)[i] == memory[i - |flag|]; }
    }
  }

  /** The first of `lines` that starts with `prefix`, or `""`. */
  function FirstStartingWith(lines: seq<string>, prefix: string): (r: string)
    requires prefix != ""
    ensures r == "" <==> forall i :: 0 <= i < |lines| ==> !StartsWith(lines[i], prefix)
    ensures r != "" ==> r in lines && StartsWith(r, prefix)
  {
    if |lines| == 0 then ""
    else if StartsWith(lines[0], prefix) then lines[0]
    else
      var r := FirstStartingWith(lines[1..], prefix);
      assert forall i :: 1 <= i < |lines| ==> lines[i] == lines[1..][i - 1];
      r
  }

  /** It is the first such line and no other. */
  lemma {:induction false} FirstStartingWithFirst(lines: seq<string>, prefix: string, k: nat)
    requires prefix != "" && k < |lines| && StartsWith(lines[k], prefix)
    requires forall i :: 0 <= i < k ==> !StartsWith(lines[i], prefix)
    ensures FirstStartingWith(lines, prefix) == lines[k]
  {
    if k > 0 {
      FirstStartingWithFirst(lines[1..], prefix, k - 1);
    }
  }

  const Shebang := "#!/usr/bin/env sh"
  const ScreenLaunch := "screen -dmS mineworker_forge "

  /** The java command line of the installer's `run.sh`. */
  function JavaLine(script: string): (l: string)
    ensures l == "" ==> forall i :: 0 <= i < |Split(script, '\n')| ==> !StartsWith(Split(script, '\n')[i], "java")
    ensures (forall i :: 0 <= i < |Split(script, '\n')| ==> !StartsWith(Split(script, '\n')[i], "java")) ==> l == ""
    ensures l != "" ==> StartsWith(l, "java") && l in Split(script, '\n')
    ensures '\n' !in l
  {
    FirstStartingWith(Split(script, '\n'), "java")
  }

  /** The rewritten `run.sh`: a shebang, then the first java line of the
      installer's script launched inside a detached screen session. */
  function RunScript(script: string): string
  {
    Shebang + ("\n" + (ScreenLaunch + JavaLine(script)))
  }

  /** The new script is two lines: the shebang, and the screen launch followed
      by the first line of the installer's script that starts with `java`
      (nothing, when no line does). */
  lemma RunScriptLines(script: string)
    ensures Split(RunScript(script), '\n') == [Shebang, ScreenLaunch + JavaLine(script)]
  {
    var l := JavaLine(script);
    var parts := [Shebang, ScreenLaunch + l];
    NoBreakInLaunch(l);
    NoBreakInShebang();
    SplitJoin(parts, '\n');
    assert parts[1..] == [ScreenLaunch + l];
    assert Join(parts, '\n') == Shebang + ['\n'] + (ScreenLaunch + l);
    assert RunScript(script) == Shebang + ("\n" + (ScreenLaunch + l));
    assert Shebang + ['\n'] + (ScreenLaunch + l) == Shebang + ("\n" + (ScreenLaunch + l));
  }

  lemma NoBreakInShebang()
    ensures '\n' !in Shebang
  {
  }

  lemma NoBreakInLaunch(l: string)
    requires '\n' !in l
    ensures '\n' !in ScreenLaunch + l
  {
    assert '\n' !in ScreenLaunch;
    forall i | 0 <= i < |ScreenLaunch + l|
      ensures (ScreenLaunch + l)[i] != '\n'
    {
      if i >= |ScreenLaunch| {
        assert (ScreenLaunch + l)[i] == l[i - |ScreenLaunch|];
      } else {
        assert (ScreenLaunch + l)[i] == ScreenLaunch[i];
      }
    }
  }

  /** The session the script starts is the one the console looks for as the
      forge server. */
  lemma LaunchNamesSession()
    ensures StartsWith(ScreenLaunch, "screen -dmS " + Session.SessionName("forge"))
    ensures ScreenLaunch[|"screen -dmS "|..] == Session.SessionName("forge") + " "
  {
  }

  /** The record saved after a forge install. */
  function InstalledConfig(worldPath: string, memory: string): (c: ServerConfig)
    ensures c.serverType == "forge" && c.worldPath == worldPath && c.memory == memory
  {
    ServerConfig("forge", worldPath, memory)
  }

  // ------------------------------------------------------------ the action

  /** How the installer process went: its output ended, starting or reading
      it threw, or its output never ends (the action then waits forever on
      it). Its exit status is not consulted. */
  datatype InstallerRun = Completed | Threw | NeverEnds

  datatype InstallEnv = InstallEnv(
    worldPath: string,
    selection: Answer,             // the server-type select prompt
    entries: Option<seq<string>>,  // the world directory listing; None when it cannot be read
    present: set<string>,          // names that exist under the world directory
    installerInput: seq<Attempt>,
    installer: InstallerRun,
    memoryInput: seq<Attempt>,
    currentRunScript: Option<string>)  // `run.sh` after the installer; None when it cannot be read

  datatype Effect =
    | Suggest(placeholder: string)
    | RunInstaller(jar: string, cwd: string)
    | WriteFile(path: string, content: string)

  datatype InstallOutcome =
    | Cancel(message: string)
    | InstallerFailed
    | Waiting    // a prompt is still open, or the installer's output never ends
    | Crashed    // a synchronous file-system call threw
    | Installed

  datatype InstallRun = InstallRun(effects: seq<Effect>, outcome: InstallOutcome)

  const Unsupported := " is not supported yet."
  const CancelledMessage := "Installation cancelled."

  function JvmArgsPath(worldPath: string): string { worldPath + "/user_jvm_args.txt" }
  function RunScriptPath(worldPath: string): string { worldPath + "/run.sh" }
  function ConfigPath(worldPath: string): string { worldPath + "/" + ConfigFileName }

  /** The text the action goes on with for a resolved prompt. As written, a
      cancelled prompt goes on with the cancel symbol's text; `cancelAware`
      makes a cancel stop the action instead. */
  function Resolved(a: Answer, cancelAware: bool): Option<string>
  {
    if cancelAware && a.Cancelled? then None else Some(AnswerText(a))
  }

  function Then(first: seq<Effect>, rest: InstallRun): InstallRun
  {
    InstallRun(first + rest.effects, rest.outcome)
  }

  /** The install action. `cancelAware` selects between the code as written
      (false) and the evidently intended handling of cancelled prompts. */
  function RunInstall(env: InstallEnv, cancelAware: bool): (r: InstallRun)
    ensures r.effects != [] ==> Resolved(env.selection, cancelAware) == Some("forge") && env.entries.Some?
    ensures r.effects != [] ==> r.effects[0] == Suggest(Placeholder(env.entries.value))
  {
    match Resolved(env.selection, cancelAware)
    case None => InstallRun([], Cancel(CancelledMessage))
    case Some(serverType) =>
      if serverType == "" then InstallRun([], Cancel(CancelledMessage))
      else if serverType != "forge" then InstallRun([], Cancel("Installation for " + serverType + Unsupported))
      else
        match env.entries
        case None => InstallRun([], Crashed)
        case Some(entries) => Then([Suggest(Placeholder(entries))], InstallerStage(env, cancelAware))
  }

  /** What a prompt left the action to go on with: the trimmed text, or the
      outcome that ends the action there. */
  datatype Entry = Entered(value: string) | Stopped(outcome: InstallOutcome)

  /** The trimmed text of a prompt; an empty one cancels the installation. */
  function EntryOf(attempts: seq<Attempt>, v: Validator, cancelAware: bool): (e: Entry)
    ensures e.Entered? ==> e.value != ""
  {
    match Prompt(attempts, v)
    case None => Stopped(Waiting)
    case Some(answer) =>
      match Resolved(answer, cancelAware)
      case None => Stopped(Cancel(CancelledMessage))
      case Some(text) =>
        var value := Trim(text);
        if value == "" then Stopped(Cancel(CancelledMessage)) else Entered(value)
  }

  /** The installer prompt, the re-check of the trimmed name, and the
      installer run. */
  function InstallerStage(env: InstallEnv, cancelAware: bool): InstallRun
  {
    match EntryOf(env.installerInput, InstallerName(env.present), cancelAware)
    case Stopped(outcome) => InstallRun([], outcome)
    case Entered(name) =>
      if name !in env.present then
        InstallRun([], Cancel("File " + name + " does not exist in the world directory."))
      else
        Then([RunInstaller(env.worldPath + "/" + name, env.worldPath)],
          match env.installer
          case Threw => InstallRun([], InstallerFailed)
          case NeverEnds => InstallRun([], Waiting)
          case Completed => MemoryStage(env, cancelAware))
  }

  /** The memory prompt, then the writes. */
  function MemoryStage(env: InstallEnv, cancelAware: bool): InstallRun
  {
    match EntryOf(env.memoryInput, MemorySize, cancelAware)
    case Stopped(outcome) => InstallRun([], outcome)
    case Entered(memory) => Then([WriteFile(JvmArgsPath(env.worldPath), JvmArgs(memory))], WriteStage(env, memory))
  }

  /** Rewriting `run.sh` (reading it throws when it is missing) and saving the
      config record. */
  function WriteStage(env: InstallEnv, memory: string): InstallRun
  {
    match env.currentRunScript
    case None => InstallRun([], Crashed)
    case Some(script) =>
      InstallRun([
        WriteFile(RunScriptPath(env.worldPath), RunScript(script)),
        WriteFile(ConfigPath(env.worldPath), ConfigText(InstalledConfig(env.worldPath, memory)))],
        Installed)
  }

  /** The action as the code is written. */
  function InstallServerJarAsWritten(env: InstallEnv): InstallRun
  {
    RunInstall(env, false)
  }

  /** The action with a cancelled prompt ending it, as evidently intended; not
      the program's behaviour. */
  function InstallServerJarCorrected(env: InstallEnv): InstallRun
  {
    RunInstall(env, true)
  }

  predicate Writes(effects: seq<Effect>)
  {
    exists i :: 0 <= i < |effects| && effects[i].WriteFile?
  }

  predicate OnlyWrites(effects: seq<Effect>)
  {
    forall i :: 0 <= i < |effects| ==> effects[i].WriteFile?
  }

  /** Any server type but `forge` is refused with its own message, before the
      directory is even listed, and nothing is written. */
  lemma OnlyForge(env: InstallEnv, cancelAware: bool)
    requires env.selection.Submitted? && env.selection.text != "forge" && env.selection.text != ""
    ensures RunInstall(env, cancelAware) == InstallRun([], Cancel("Installation for " + env.selection.text + Unsupported))
  {
  }

  /** After the installer, the action only writes files; a completed install
      writes the heap flags, `run.sh` and the config record, in that order. */
  lemma MemoryStageWrites(env: InstallEnv, cancelAware: bool)
    ensures OnlyWrites(MemoryStage(env, cancelAware).effects)
    ensures MemoryStage(env, cancelAware).outcome.Installed? ==>
      var memory := EntryOf(env.memoryInput, MemorySize, cancelAware).value;
      MemoryStage(env, cancelAware).effects == [
        WriteFile(JvmArgsPath(env.worldPath), JvmArgs(memory)),
        WriteFile(RunScriptPath(env.worldPath), RunScript(env.currentRunScript.value)),
        WriteFile(ConfigPath(env.worldPath), ConfigText(InstalledConfig(env.worldPath, memory)))]
  {
    var e := EntryOf(env.memoryInput, MemorySize, cancelAware);
    if e.Entered? {
      var w0 := WriteFile(JvmArgsPath(env.worldPath), JvmArgs(e.value));
      var rest := WriteStage(env, e.value);
      assert MemoryStage(env, cancelAware) == InstallRun([w0] + rest.effects, rest.outcome);
      if env.currentRunScript.Some? {
        var w1 := WriteFile(RunScriptPath(env.worldPath), RunScript(env.currentRunScript.value));
        var w2 := WriteFile(ConfigPath(env.worldPath), ConfigText(InstalledConfig(env.worldPath, e.value)));
        assert rest == InstallRun([w1, w2], Installed);
        Regroup3(w0, rest.effects);
      } else {
        assert rest == InstallRun([], Crashed);
      }
    } else {
      assert MemoryStage(env, cancelAware) == InstallRun([], e.outcome);
    }
  }

  lemma Regroup3(a: Effect, w: seq<Effect>)
    requires |w| == 2
    ensures [a] + w == [a, w[0], w[1]]
  {
  }

  /** Nothing is written unless the installer was started on a name present
      in the world directory and its run completed. */
  lemma InstallerStageWrites(env: InstallEnv, cancelAware: bool)
    ensures var run := InstallerStage(env, cancelAware);
      Writes(run.effects) ==>
        && env.installer.Completed?
        && run.effects[0].RunInstaller?
        && run.effects[1..] == MemoryStage(env, cancelAware).effects
    ensures !env.installer.Completed? ==> !Writes(InstallerStage(env, cancelAware).effects)
  {
    var run := InstallerStage(env, cancelAware);
    MemoryStageWrites(env, cancelAware);
    if Writes(run.effects) {
      var i :| 0 <= i < |run.effects| && run.effects[i].WriteFile?;
      assert |run.effects| > 0;
    }
  }

  /** Nothing is written unless the installer ran and completed: the writes
      come after the suggestion and the installer run; when the installer
      throws the action ends without writing, and when its output never ends
      the action stays pending right after starting it. */
  lemma WritesFollowInstaller(env: InstallEnv, cancelAware: bool)
    ensures var run := RunInstall(env, cancelAware);
      Writes(run.effects) ==>
        && env.installer.Completed?
        && run.effects[0].Suggest?
        && run.effects[1].RunInstaller?
        && OnlyWrites(run.effects[2..])
    ensures !env.installer.Completed? ==> !Writes(RunInstall(env, cancelAware).effects)
    ensures env.installer.NeverEnds? && |RunInstall(env, cancelAware).effects| >= 2 ==>
      && RunInstall(env, cancelAware).outcome == Waiting && |RunInstall(env, cancelAware).effects| == 2
      && RunInstall(env, cancelAware).effects[1].RunInstaller?
  {
    var run := RunInstall(env, cancelAware);
    InstallerStageWrites(env, cancelAware);
    MemoryStageWrites(env, cancelAware);
    if Writes(run.effects) {
      var i :| 0 <= i < |run.effects| && run.effects[i].WriteFile?;
      var inner := InstallerStage(env, cancelAware);
      assert run.effects[1..] == inner.effects;
      assert Writes(inner.effects) by {
        assert inner.effects[i - 1].WriteFile?;
      }
      assert run.effects[2..] == inner.effects[1..];
    } else if env.installer.Threw? {
    }
  }

  /** A run that installs got through the gate and the directory listing. */
  lemma RunInstallInstalled(env: InstallEnv, cancelAware: bool)
    requires RunInstall(env, cancelAware).outcome.Installed?
    ensures env.entries.Some?
    ensures RunInstall(env, cancelAware).effects == [Suggest(Placeholder(env.entries.value))] + InstallerStage(env, cancelAware).effects
    ensures InstallerStage(env, cancelAware).outcome.Installed?
  {
    var r := Resolved(env.selection, cancelAware);
    if r.Some? && r.value == "forge" {
      if env.entries.Some? {
      } else {
      }
    }
  }

  /** An installer stage that installs started the installer on a name that
      is present, and went on to the memory stage. */
  lemma InstallerStageInstalled(env: InstallEnv, cancelAware: bool)
    requires InstallerStage(env, cancelAware).outcome.Installed?
    ensures var e := EntryOf(env.installerInput, InstallerName(env.present), cancelAware);
      && e.Entered? && e.value in env.present
      && env.installer.Completed?
      && InstallerStage(env, cancelAware).effects
        == [RunInstaller(env.worldPath + "/" + e.value, env.worldPath)] + MemoryStage(env, cancelAware).effects
      && MemoryStage(env, cancelAware).outcome.Installed?
  {
    var e := EntryOf(env.installerInput, InstallerName(env.present), cancelAware);
    if e.Entered? {
      if env.installer.Completed? {
      } else {
      }
    }
  }

  /** A completed install entered a name present in the world directory and
      a memory, listed the directory and read `run.sh`. */
  lemma InstalledEntries(env: InstallEnv, cancelAware: bool)
    requires RunInstall(env, cancelAware).outcome.Installed?
    ensures var name := EntryOf(env.installerInput, InstallerName(env.present), cancelAware);
      && name.Entered? && name.value in env.present
      && EntryOf(env.memoryInput, MemorySize, cancelAware).Entered?
      && env.entries.Some? && env.currentRunScript.Some?
      && env.installer.Completed?
  {
    RunInstallInstalled(env, cancelAware);
    InstallerStageInstalled(env, cancelAware);
    MemoryStageInstalled(env, cancelAware);
  }

  /** A completed install wrote exactly five effects: the suggestion, the
      installer run on the name entered (found in the world directory and
      started there), the heap flags for the memory entered, the rewritten
      `run.sh`, and the record of a forge server in the world directory with
      that memory. */
  lemma InstalledWrites(env: InstallEnv, cancelAware: bool)
    requires RunInstall(env, cancelAware).outcome.Installed?
    requires EntryOf(env.installerInput, InstallerName(env.present), cancelAware).Entered?
    requires EntryOf(env.memoryInput, MemorySize, cancelAware).Entered?
    requires env.entries.Some? && env.currentRunScript.Some?
    ensures var name := EntryOf(env.installerInput, InstallerName(env.present), cancelAware).value;
      var memory := EntryOf(env.memoryInput, MemorySize, cancelAware).value;
      RunInstall(env, cancelAware).effects == [
        Suggest(Placeholder(env.entries.value)),
        RunInstaller(env.worldPath + "/" + name, env.worldPath),
        WriteFile(JvmArgsPath(env.worldPath), JvmArgs(memory)),
        WriteFile(RunScriptPath(env.worldPath), RunScript(env.currentRunScript.value)),
        WriteFile(ConfigPath(env.worldPath), ConfigText(InstalledConfig(env.worldPath, memory)))]
  {
    var name := EntryOf(env.installerInput, InstallerName(env.present), cancelAware).value;
    var memory := EntryOf(env.memoryInput, MemorySize, cancelAware).value;
    RunInstallInstalled(env, cancelAware);
    InstallerStageInstalled(env, cancelAware);
    MemoryStageInstalled(env, cancelAware);
    var writes := MemoryStage(env, cancelAware).effects;
    Regroup(Suggest(Placeholder(env.entries.value)), RunInstaller(env.worldPath + "/" + name, env.worldPath), writes);
  }

  lemma Regroup(a: Effect, b: Effect, w: seq<Effect>)
    requires |w| == 3
    ensures [a] + ([b] + w) == [a, b, w[0], w[1], w[2]]
  {
  }

  /** The saved record reads back as a forge server in the world directory
      with the memory entered. */
  lemma InstalledConfigReadsBack(worldPath: string, memory: string)
    ensures ReadConfig(ConfigText(InstalledConfig(worldPath, memory))) == Some(ServerConfig("forge", worldPath, memory))
  {
    ConfigRoundTrip(InstalledConfig(worldPath, memory));
  }

  lemma MemoryStageInstalled(env: InstallEnv, cancelAware: bool)
    requires MemoryStage(env, cancelAware).outcome.Installed?
    ensures EntryOf(env.memoryInput, MemorySize, cancelAware).Entered?
    ensures env.currentRunScript.Some?
    ensures var memory := EntryOf(env.memoryInput, MemorySize, cancelAware).value;
      MemoryStage(env, cancelAware).effects == [
        WriteFile(JvmArgsPath(env.worldPath), JvmArgs(memory)),
        WriteFile(RunScriptPath(env.worldPath), RunScript(env.currentRunScript.value)),
        WriteFile(ConfigPath(env.worldPath), ConfigText(InstalledConfig(env.worldPath, memory)))]
  {
    var e := EntryOf(env.memoryInput, MemorySize, cancelAware);
    if e.Entered? {
      if env.currentRunScript.Some? {
      } else {
      }
    }
  }

  /** With cancels ending the action, a memory that gets through the prompt
      is one the validator accepted, unchanged by the trim. */
  lemma AcceptedMemory(attempts: seq<Attempt>)
    requires EntryOf(attempts, MemorySize, true).Entered?
    ensures MemoryPattern(EntryOf(attempts, MemorySize, true).value)
  {
    var answer := Prompt(attempts, MemorySize).value;
    assert answer.Submitted?;
    assert Problem(MemorySize, answer.text).None?;
    MemoryVerbatim(answer.text);
  }

  /** Once cancels end the action, the memory written is one the validator
      accepted; it reaches the heap flags verbatim, one flag per line. */
  lemma InstalledMemoryValid(env: InstallEnv)
    requires InstallServerJarCorrected(env).outcome.Installed?
    ensures EntryOf(env.memoryInput, MemorySize, true).Entered?
    ensures var memory := EntryOf(env.memoryInput, MemorySize, true).value;
      && MemoryPattern(memory)
      && Split(JvmArgs(memory), '\n') == ["-Xmx" + memory, "-Xms" + memory, ""]
  {
    InstalledEntries(env, true);
    AcceptedMemoryLines(env.memoryInput);
  }

  lemma AcceptedMemoryLines(attempts: seq<Attempt>)
    requires EntryOf(attempts, MemorySize, true).Entered?
    ensures var memory := EntryOf(attempts, MemorySize, true).value;
      && MemoryPattern(memory)
      && Split(JvmArgs(memory), '\n') == ["-Xmx" + memory, "-Xms" + memory, ""]
  {
    var memory := EntryOf(attempts, MemorySize, true).value;
    AcceptedMemory(attempts);
    PatternOneLine(memory);
    JvmArgsLines(memory);
  }

  /** The run the finding below is about: forge selected, an installer name
      accepted, the installer completed, and the memory prompt interrupted. */
  predicate InterruptedAtMemory(env: InstallEnv)
  {
    && env.selection == Submitted("forge") && env.entries.Some?
    && env.installerInput == [Enter(ExampleJar)] && ExampleJar in env.present
    && env.installer.Completed? && env.memoryInput == [Interrupt] && env.currentRunScript.Some?
  }

  /** Interrupting the memory prompt, as the code is written, goes on to
      install with the cancel symbol's text as the heap size. */
  lemma MemoryCancelFinding(env: InstallEnv)
    requires InterruptedAtMemory(env)
    ensures InstallServerJarAsWritten(env).outcome.Installed?
    ensures |InstallServerJarAsWritten(env).effects| > 2
      && InstallServerJarAsWritten(env).effects[2] == WriteFile(JvmArgsPath(env.worldPath), JvmArgs(CancelText))
  {
    ExampleJarEntered(env.present, false);
    CancelMemoryStage(env);
    var memory := MemoryStage(env, false);
    InstallerCompleted(env, false, ExampleJar);
    var inner := InstallerStage(env, false);
    assert inner.effects[1] == memory.effects[0];
    ForgeSelected(env, false);
    var run := InstallServerJarAsWritten(env);
    assert run == Then([Suggest(Placeholder(env.entries.value))], inner);
    assert run.effects[2] == inner.effects[1];
  }

  /** An accepted installer name present in the directory, and an installer
      that completed: the installer runs, then the memory stage follows. */
  lemma InstallerCompleted(env: InstallEnv, cancelAware: bool, name: string)
    requires EntryOf(env.installerInput, InstallerName(env.present), cancelAware) == Entered(name)
    requires name in env.present && env.installer.Completed?
    ensures InstallerStage(env, cancelAware)
      == Then([RunInstaller(env.worldPath + "/" + name, env.worldPath)], MemoryStage(env, cancelAware))
  {
  }

  /** Selecting forge with a readable directory goes on to the installer
      prompt, after suggesting a name. */
  lemma ForgeSelected(env: InstallEnv, cancelAware: bool)
    requires env.selection == Submitted("forge") && env.entries.Some?
    ensures RunInstall(env, cancelAware) == Then([Suggest(Placeholder(env.entries.value))], InstallerStage(env, cancelAware))
  {
  }

  lemma CancelMemoryStage(env: InstallEnv)
    requires env.memoryInput == [Interrupt] && env.currentRunScript.Some?
    ensures MemoryStage(env, false).outcome.Installed?
    ensures MemoryStage(env, false).effects[0] == WriteFile(JvmArgsPath(env.worldPath), JvmArgs(CancelText))
  {
    CancelEntered();
  }

  /** With cancels ending the action, the same run cancels the installation
      after the installer and writes nothing. */
  lemma MemoryCancelCorrected(env: InstallEnv)
    requires InterruptedAtMemory(env)
    ensures InstallServerJarCorrected(env).outcome == Cancel(CancelledMessage)
    ensures InstallServerJarCorrected(env).effects == [Suggest(Placeholder(env.entries.value)), RunInstaller(env.worldPath + "/" + ExampleJar, env.worldPath)]
  {
    ExampleJarEntered(env.present, true);
    CancelEntered();
    ForgeSelected(env, true);
    assert MemoryStage(env, true) == InstallRun([], Cancel(CancelledMessage));
  }

  const ExampleJar := "forge-1.20-installer.jar"

  lemma ExampleJarEntered(present: set<string>, cancelAware: bool)
    requires ExampleJar in present
    ensures EntryOf([Enter(ExampleJar)], InstallerName(present), cancelAware) == Entered(ExampleJar)
  {
    assert NoWhitespace(ExampleJar);
  }

  /** As written, an interrupted prompt goes on with the cancel symbol's text;
      with cancels ending the action, it cancels the installation. */
  lemma CancelEntered()
    ensures EntryOf([Interrupt], MemorySize, false) == Entered(CancelText)
    ensures EntryOf([Interrupt], MemorySize, true) == Stopped(Cancel(CancelledMessage))
  {
    assert NoWhitespace(CancelText);
  }
}

=== FILE: jstext.dfy ===
/** The JavaScript string built-ins the console relies on (`trim`, `split`,
    `startsWith`, `endsWith`, `includes`, global single-character `replace`,
    `toLowerCase` on ASCII), restated over Dafny strings. Also the `Option`
    used throughout for values that may be `undefined`. */
module JsText {

  datatype Option<+T> = None | Some(value: T)

  /** `${v}` in a template literal: an undefined value prints as "undefined". */
  function Show(v: Option<string>): string
  {
    match v
    case Some(s) => s
    case None => "undefined"
  }

  /** The characters JavaScript's `trim` and the regular-expression class `\s`
      treat as white space: WhiteSpace and LineTerminator of ECMA-262. */
  predicate IsWhitespace(c: char)
  {
    || c == '\t' || c == '\n' || c == '\U{000B}' || c == '\U{000C}' || c == '\r'
    || c == ' ' || c == '\U{00A0}' || c == '\U{1680}'
    || ('\U{2000}' <= c <= '\U{200A}')
    || c == '\U{2028}' || c == '\U{2029}' || c == '\U{202F}' || c == '\U{205F}'
    || c == '\U{3000}' || c == '\U{FEFF}'
  }

  predicate NoWhitespace(s: string)
  {
    forall i :: 0 <= i < |s| ==> !IsWhitespace(s[i])
  }

  /** Number of white-space characters at the front of `s`. */
  function LeadingSpace(s: string): (k: nat)
    ensures k <= |s|
    ensures forall i :: 0 <= i < k ==> IsWhitespace(s[i])
    ensures k < |s| ==> !IsWhitespace(s[k])
  {
    if |s| > 0 && IsWhitespace(s[0]) then 1 + LeadingSpace(s[1..]) else 0
  }

  /** Number of white-space characters at the back of `s`. */
  function TrailingSpace(s: string): (k: nat)
    ensures k <= |s|
    ensures forall i :: |s| - k <= i < |s| ==> IsWhitespace(s[i])
    ensures k < |s| ==> !IsWhitespace(s[|s| - k - 1])
  {
    if |s| > 0 && IsWhitespace(s[|s| - 1]) then 1 + TrailingSpace(s[..|s| - 1]) else 0
  }

  /** `s.trim()`: the slice of `s` between its leading and trailing white space. */
  function Trim(s: string): (r: string)
    ensures |r| <= |s|
    ensures r == [] || (!IsWhitespace(r[0]) && !IsWhitespace(r[|r| - 1]))
    ensures r == [] <==> (forall i :: 0 <= i < |s| ==> IsWhitespace(s[i]))
    ensures NoWhitespace(s) ==> r == s
  {
    var lead := LeadingSpace(s);
    if lead == |s| then []
    else
      var trail := TrailingSpace(s);
      assert !IsWhitespace(s[lead]);
      assert trail < |s| - lead;
      s[lead .. |s| - trail]
  }

  /** The pieces of `s` between occurrences of `sep`, as `s.split(sep)` returns
      them for a one-character separator: there is always at least one piece. */
  function Split(s: string, sep: char): (parts: seq<string>)
    ensures |parts| >= 1
    ensures forall i :: 0 <= i < |parts| ==> sep !in parts[i]
    ensures Join(parts, sep) == s
    ensures sep !in s ==> parts == [s]
    decreases |s|
  {
    if sep !in s then [s]
    else
      var i := IndexOf(s, sep);
      var rest := Split(s[i + 1..], sep);
      assert s == s[..i] + [sep] + s[i + 1..];
      [s[..i]] + rest
  }

  /** `parts.join(sep)`. */
  function Join(parts: seq<string>, sep: char): string
    requires |parts| >= 1
  {
    if |parts| == 1 then parts[0] else parts[0] + [sep] + Join(parts[1..], sep)
  }

  /** Position of the first `c` in `s`. */
  function IndexOf(s: string, c: char): (i: nat)
    requires c in s
    ensures i < |s| && s[i] == c && c !in s[..i]
  {
    if s[0] == c then 0
    else
      assert c in s[1..] by { assert s == [s[0]] + s[1..]; }
      var j := IndexOf(s[1..], c);
      assert s[..j + 1] == [s[0]] + s[1..][..j];
      1 + j
  }

  /** `IndexOf` finds the first occurrence and no other. */
  lemma {:induction false} IndexOfFirst(s: string, c: char, k: nat)
    requires k < |s| && s[k] == c && c !in s[..k]
    ensures IndexOf(s, c) == k
  {
    if k > 0 {
      assert s[0] in s[..k];
      assert s[1..][k - 1] == c;
      assert s[1..][..k - 1] == s[..k][1..];
      IndexOfFirst(s[1..], c, k - 1);
    }
  }

  /** Splitting a join of separator-free pieces gives the pieces back. */
  lemma {:induction false} SplitJoin(parts: seq<string>, sep: char)
    requires |parts| >= 1
    requires forall i :: 0 <= i < |parts| ==> sep !in parts[i]
    ensures Split(Join(parts, sep), sep) == parts
    decreases |parts|
  {
    if |parts| == 1 {
    } else {
      var tail := Join(parts[1..], sep);
      var s := parts[0] + [sep] + tail;
      assert sep in s by { assert s[|parts[0]|] == sep; }
      assert s[..|parts[0]|] == parts[0];
      IndexOfFirst(s, sep, |parts[0]|);
      var i := IndexOf(s, sep);
      assert s[i + 1..] == tail;
      SplitJoin(parts[1..], sep);
    }
  }

  predicate StartsWith(s: string, prefix: string)
  {
    |prefix| <= |s| && s[..|prefix|] == prefix
  }

  predicate EndsWith(s: string, suffix: string)
  {
    |suffix| <= |s| && s[|s| - |suffix|..] == suffix
  }

  /** `s.includes(needle)`. */
  predicate Contains(s: string, needle: string)
    decreases |s|
  {
    StartsWith(s, needle) || (|s| > 0 && Contains(s[1..], needle))
  }

  /** A string that starts with the needle somewhere after a prefix contains it. */
  lemma {:induction false} ContainsAfterPrefix(prefix: string, s: string, needle: string)
    requires StartsWith(s, needle)
    ensures Contains(prefix + s, needle)
    decreases |prefix|
  {
    if |prefix| == 0 {
      assert prefix + s == s;
    } else {
      assert (prefix + s)[1..] == prefix[1..] + s;
      ContainsAfterPrefix(prefix[1..], s, needle);
    }
  }

  /** `s.toLowerCase()` on the ASCII letters; every other character is kept. */
  function LowerAscii(s: string): (r: string)
    ensures |r| == |s|
    ensures forall i :: 0 <= i < |s| ==> r[i] == (if 'A' <= s[i] <= 'Z' then (s[i] as int + 32) as char else s[i])
  {
    if |s| == 0 then [] else [LowerChar(s[0])] + LowerAscii(s[1..])
  }

  function LowerChar(c: char): char
  {
    if 'A' <= c <= 'Z' then (c as int + 32) as char else c
  }

  /** `s.replace(/x/g, out)` generalised: every character is replaced by the
      string `f` gives for it. */
  function MapChars(s: string, f: char -> string): string
  {
    if |s| == 0 then [] else f(s[0]) + MapChars(s[1..], f)
  }

  /** Replacing character by character distributes over concatenation. */
  lemma {:induction false} MapCharsAppend(a: string, b: string, f: char -> string)
    ensures MapChars(a + b, f) == MapChars(a, f) + MapChars(b, f)
    decreases |a|
  {
    if |a| == 0 {
      assert a + b == b;
    } else {
      assert (a + b)[1..] == a[1..] + b;
      MapCharsAppend(a[1..], b, f);
    }
  }

  /** Every character of a replaced string comes from the replacement of some
      input character. */
  lemma {:induction false} MapCharsFrom(s: string, f: char -> string, bad: char -> bool)
    requires forall c :: forall j :: 0 <= j < |f(c)| ==> !bad(f(c)[j])
    ensures forall j :: 0 <= j < |MapChars(s, f)| ==> !bad(MapChars(s, f)[j])
    decreases |s|
  {
    if |s| > 0 {
      MapCharsFrom(s[1..], f, bad);
      var head := f(s[0]);
      var tail := MapChars(s[1..], f);
      forall j | 0 <= j < |head + tail|
        ensures !bad((head + tail)[j])
      {
        if j < |head| { assert (head + tail)[j] == head[j]; }
        else { assert (head + tail)[j] == tail[j - |head|]; }
      }
    }
  }
}

=== FILE: load.dfy ===
/** Loading a world from the drive: list the backed-up archives, pick one by
    id, stream it into `world.zip` beside the world directory while counting
    the bytes received, unzip it into the world directory and delete the
    archive. Authentication, the listing, the media stream and the unzip
    process are inputs; the stream is a trace of events. */
module Load {
  import opened JsText
  import opened Decimal
  import Upload

  /** The metadata of a listed archive; any field may be missing. */
  datatype DriveFile = DriveFile(id: Option<string>, name: Option<string>, size: Option<string>)

  /** The listing request: it fails, or its response may or may not carry a
      file list. */
  datatype Listing = ListFailed | Listed(files: Option<seq<DriveFile>>)

  /** The worlds offered: a failed request and a missing list both count as
      no worlds. */
  function Worlds(l: Listing): (ws: seq<DriveFile>)
    ensures l.ListFailed? || l.files.None? ==> ws == []
    ensures l.Listed? && l.files.Some? ==> ws == l.files.value
  {
    match l
    case ListFailed => []
    case Listed(None) => []
    case Listed(Some(files)) => files
  }

  /** The value the select prompt gives an archive: its id, or `""`. */
  function OptionValue(f: DriveFile): string
  {
    match f.id
    case Some(id) => id
    case None => ""
  }

  /** The first listed archive whose id is the selected value. A cancelled
      prompt (`None`) matches none. */
  function FindWorld(worlds: seq<DriveFile>, selected: Option<string>): (r: Option<nat>)
    ensures r.Some? ==> r.value < |worlds| && selected.Some? && worlds[r.value].id == selected
    ensures r.Some? ==> forall i :: 0 <= i < r.value ==> worlds[i].id != selected
    ensures r.None? ==> selected.None? || forall i :: 0 <= i < |worlds| ==> worlds[i].id != selected
  {
    if selected.None? || |worlds| == 0 then None
    else if worlds[0].id == selected then Some(0)
    else
      match FindWorld(worlds[1..], selected)
      case None => None
      case Some(k) => Some(k + 1)
  }

  /** Picking an archive in the prompt selects the first archive with the
      same id, which is that archive unless an earlier one shares its id. */
  lemma {:induction false} PickedWorld(worlds: seq<DriveFile>, k: nat)
    requires k < |worlds| && worlds[k].id.Some?
    ensures FindWorld(worlds, Some(OptionValue(worlds[k]))).Some?
    ensures (forall i :: 0 <= i < k ==> worlds[i].id != worlds[k].id) ==>
      FindWorld(worlds, Some(OptionValue(worlds[k]))) == Some(k)
  {
    if k > 0 && worlds[0].id != worlds[k].id {
      PickedWorld(worlds[1..], k - 1);
    }
  }

  /** `parseInt(size || "0")`: a missing or empty size counts as zero bytes;
      `None` stands for `NaN`. */
  function ExpectedSize(size: Option<string>): (r: Option<int>)
    ensures size.None? ==> r == Some(0)
  {
    ParseZero();
    match size
    case None => ParseInt("0")
    case Some(s) => if s == "" then ParseInt("0") else ParseInt(s)
  }

  lemma ParseZero()
    ensures ParseInt("0") == Some(0)
  {
    ParseIntRendered(0, []);
    assert NatToString(0) + [] == "0";
  }

  /** The size the drive reports for a file is read back exactly. */
  lemma ExpectedSizeOf(n: nat)
    ensures ExpectedSize(Some(NatToString(n))) == Some(n)
    ensures ExpectedSize(Some("")) == Some(0)
  {
    ParseIntRendered(n, []);
    assert NatToString(n) + [] == NatToString(n);
  }

  // --------------------------------------------------------------- stream

  /** What the media stream does: deliver a chunk, end, or fail. */
  datatype Event = Data(length: nat) | End | Error

  datatype StreamEnd = Ended | Errored | StillOpen

  /** The result of folding the stream's events into the counter: the
      counter's value after each chunk, how the stream finished, and the final
      count. */
  datatype Transfer = Transfer(progress: seq<nat>, finish: StreamEnd, downloaded: nat)

  /** The chunk lengths before the first `End` or `Error`. */
  function Received(events: seq<Event>): (lens: seq<nat>)
    ensures |lens| <= |events|
  {
    if |events| == 0 || !events[0].Data? then []
    else [events[0].length] + Received(events[1..])
  }

  /** How the stream finished: at its first `End` or `Error`, or not at all. */
  function Finish(events: seq<Event>): StreamEnd
  {
    if |events| == 0 then StillOpen
    else match events[0]
      case Data(_) => Finish(events[1..])
      case End => Ended
      case Error => Errored
  }

  /** The `data` handler run over the events from a count of `downloaded`:
      each chunk adds its length; the first `End` or `Error` stops the stream. */
  function Receive(events: seq<Event>, downloaded: nat): (t: Transfer)
    ensures t.downloaded == downloaded + Upload.Sum(Received(events))
    ensures |t.progress| == |Received(events)|
    ensures forall i :: 0 <= i < |t.progress| ==>
      t.progress[i] == downloaded + Upload.Sum(Received(events)[..i + 1])
    ensures t.finish == Finish(events)
  {
    if |events| == 0 then Transfer([], StillOpen, downloaded)
    else match events[0]
      case End => Transfer([], Ended, downloaded)
      case Error => Transfer([], Errored, downloaded)
      case Data(n) =>
        var rest := Receive(events[1..], downloaded + n);
        var lens := Received(events);
        var tail := Received(events[1..]);
        assert lens == [n] + tail;
        var progress := [downloaded + n] + rest.progress;
        assert lens[..1] == [n];
        assert forall i :: 1 <= i < |progress| ==> progress[i] == downloaded + Upload.Sum(lens[..i + 1]) by {
          forall i | 1 <= i < |progress|
            ensures progress[i] == downloaded + Upload.Sum(lens[..i + 1])
          {
            assert progress[i] == rest.progress[i - 1];
            assert lens[..i + 1] == [n] + tail[..i];
          }
        }
        Transfer(progress, rest.finish, rest.downloaded)
  }

  /** The counter never goes down, and it ends at the total received. */
  lemma DownloadedMonotone(events: seq<Event>)
    ensures var t := Receive(events, 0);
      && (forall i, j :: 0 <= i <= j < |t.progress| ==> t.progress[i] <= t.progress[j])
      && (|t.progress| > 0 ==> t.progress[|t.progress| - 1] == t.downloaded)
  {
    var t := Receive(events, 0);
    var lens := Received(events);
    Upload.ProgressMonotone(lens);
    assert forall i :: 0 <= i < |t.progress| ==> t.progress[i] == Upload.Progress(lens)[i];
  }

  // ------------------------------------------------------------ the action

  datatype LoadEnv = LoadEnv(
    worldPath: string,
    authed: bool,              // an authentication object came back
    listing: Listing,
    selected: Option<string>,  // the select prompt's value; None when cancelled
    media: Option<seq<Event>>, // the media stream; None when the request is rejected
    archiveWritable: bool,     // `world.zip` can be created and written
    worldExists: bool,         // the world directory exists when the unzip starts
    unzipSpawns: bool)         // starting `unzip` does not throw

  /** The externally visible steps, in order. `world.zip` is the archive
      beside the world directory. */
  datatype Step =
    | OpenArchive                          // create `world.zip` for writing
    | RequestMedia(fileId: string)
    | Progress(downloaded: nat, of: Option<int>)
    | DeleteArchive
    | MakeWorldDir(path: string)
    | Unzip(cwd: string)                   // `unzip -o world.zip`, overwriting

  datatype LoadOutcome =
    | AuthFailed
    | NoWorlds
    | NoSelection
    | InvalidMetadata
    | Crashed      // a rejected request, a failing write of the archive or a failing synchronous delete
    | Waiting      // the stream has not finished
    | UnzipFailed
    | Loaded

  datatype LoadRun = LoadRun(steps: seq<Step>, outcome: LoadOutcome)

  predicate Missing(field: Option<string>)
  {
    field.None? || field.value == ""
  }

  function ProgressSteps(progress: seq<nat>, of: Option<int>): (ps: seq<Step>)
    ensures |ps| == |progress|
    ensures forall i :: 0 <= i < |progress| ==> ps[i] == Progress(progress[i], of)
  {
    seq(|progress|, i requires 0 <= i < |progress| => Progress(progress[i], of))
  }

  /** The load action. */
  function LoadWorld(env: LoadEnv): (r: LoadRun)
    ensures r.steps != [] ==> env.authed && r.steps[0] == OpenArchive
    ensures forall i :: 0 <= i < |r.steps| && r.steps[i].RequestMedia? ==> Some(r.steps[i].fileId) == env.selected
  {
    if !env.authed then LoadRun([], AuthFailed)
    else
      var worlds := Worlds(env.listing);
      if |worlds| == 0 then LoadRun([], NoWorlds)
      else
        match FindWorld(worlds, env.selected)
        case None => LoadRun([], NoSelection)
        case Some(k) => Download(env, worlds[k])
  }

  /** From the archive chosen: open `world.zip`, check the metadata, request
      the media and follow its stream. An archive that cannot be written
      fails the write stream, and the wait for it to finish rejects. */
  function Download(env: LoadEnv, file: DriveFile): (r: LoadRun)
    ensures |r.steps| >= 1 && r.steps[0] == OpenArchive
    ensures forall i :: 0 <= i < |r.steps| && r.steps[i].RequestMedia? ==> i == 1 && Some(r.steps[i].fileId) == file.id
    ensures r.outcome == Loaded ==> env.archiveWritable && env.media.Some? && Finish(env.media.value) == Ended
  {
    if Missing(file.name) || Missing(file.id) then LoadRun([OpenArchive], InvalidMetadata)
    else if !env.archiveWritable then LoadRun([OpenArchive, RequestMedia(file.id.value)], Crashed)
    else Fetch(env, file.id.value, ExpectedSize(file.size))
  }

  /** The media request for `id` into the opened archive, and its stream,
      shown against the expected size `of`. */
  function Fetch(env: LoadEnv, id: string, of: Option<int>): (r: LoadRun)
    ensures |r.steps| >= 2 && r.steps[0] == OpenArchive && r.steps[1] == RequestMedia(id)
    ensures forall i :: 0 <= i < |r.steps| && r.steps[i].RequestMedia? ==> i == 1
    ensures r.outcome == Loaded ==> env.media.Some? && Finish(env.media.value) == Ended
  {
    var requested := [OpenArchive, RequestMedia(id)];
    match env.media
    case None => LoadRun(requested, Crashed)
    case Some(events) =>
      var t := Receive(events, 0);
      var streamed := requested + ProgressSteps(t.progress, of);
      match t.finish
      case StillOpen => LoadRun(streamed, Waiting)
      case Errored => Unpack(env, streamed + [DeleteArchive], false)
      case Ended => Unpack(env, streamed, true)
  }

  /** Once the archive stream has finished: make the world directory if it is
      absent, unzip, and delete the archive (which throws when it is already
      gone). The unzip's exit status is not consulted. */
  function Unpack(env: LoadEnv, before: seq<Step>, archivePresent: bool): (r: LoadRun)
    ensures |r.steps| > |before| || !env.unzipSpawns
    ensures |r.steps| >= |before| && r.steps[..|before|] == before
    ensures forall i :: |before| <= i < |r.steps| ==>
      r.steps[i] == MakeWorldDir(env.worldPath) || r.steps[i] == Unzip(env.worldPath) || r.steps[i] == DeleteArchive
    ensures r.outcome == Loaded <==> env.unzipSpawns && archivePresent
  {
    var made := before + (if env.worldExists then [] else [MakeWorldDir(env.worldPath)]);
    if !env.unzipSpawns then LoadRun(made, UnzipFailed)
    else if archivePresent then LoadRun(made + [Unzip(env.worldPath), DeleteArchive], Loaded)
    else LoadRun(made + [Unzip(env.worldPath)], Crashed)
  }

  /** A failed, missing or empty listing ends the action before any prompt or
      download. */
  lemma NoWorldsStops(env: LoadEnv)
    requires env.authed
    requires env.listing.ListFailed? || env.listing.files.None? || env.listing.files.value == []
    ensures LoadWorld(env) == LoadRun([], NoWorlds)
  {
  }

  /** The archive downloaded is the first listed one whose id was selected;
      when none has it, nothing is downloaded. */
  lemma DownloadsSelected(env: LoadEnv)
    requires env.authed && |Worlds(env.listing)| > 0
    ensures var worlds := Worlds(env.listing);
      match FindWorld(worlds, env.selected)
      case None => LoadWorld(env) == LoadRun([], NoSelection)
      case Some(k) =>
        && worlds[k].id == env.selected
        && (forall i :: 0 <= i < k ==> worlds[i].id != env.selected)
        && LoadWorld(env) == Download(env, worlds[k])
  {
  }

  /** A missing name or id stops the action after `world.zip` has been opened
      but before the media is requested. */
  lemma MetadataGuard(env: LoadEnv, file: DriveFile)
    requires Missing(file.name) || Missing(file.id)
    ensures Download(env, file) == LoadRun([OpenArchive], InvalidMetadata)
    ensures forall i :: 0 <= i < |Download(env, file).steps| ==> !Download(env, file).steps[i].RequestMedia?
  {
  }

  /** The progress shown is the running sum of the chunks received, against
      the expected size, in order. */
  lemma ProgressShown(env: LoadEnv, file: DriveFile)
    requires !Missing(file.name) && !Missing(file.id) && env.archiveWritable && env.media.Some?
    ensures var run := Download(env, file);
      var lens := Received(env.media.value);
      && |run.steps| >= 2 + |lens|
      && run.steps[..2] == [OpenArchive, RequestMedia(file.id.value)]
      && forall i :: 2 <= i < 2 + |lens| ==>
        run.steps[i] == Progress(Upload.Sum(lens[..i - 1]), ExpectedSize(file.size))
  {
    DownloadFetches(env, file);
    FetchProgress(env, file.id.value, ExpectedSize(file.size));
  }

  /** Past the metadata check and with a writable archive, the download is
      the media request and its stream. */
  lemma DownloadFetches(env: LoadEnv, file: DriveFile)
    requires !Missing(file.name) && !Missing(file.id) && env.archiveWritable
    ensures Download(env, file) == Fetch(env, file.id.value, ExpectedSize(file.size))
  {
  }

  lemma FetchProgress(env: LoadEnv, id: string, of: Option<int>)
    requires env.media.Some?
    ensures var run := Fetch(env, id, of);
      var lens := Received(env.media.value);
      && |run.steps| >= 2 + |lens|
      && run.steps[..2] == [OpenArchive, RequestMedia(id)]
      && forall i :: 2 <= i < 2 + |lens| ==> run.steps[i] == Progress(Upload.Sum(lens[..i - 1]), of)
  {
    var run := Fetch(env, id, of);
    var t := Receive(env.media.value, 0);
    var streamed := [OpenArchive, RequestMedia(id)] + ProgressSteps(t.progress, of);
    if t.finish == Errored {
      var before := streamed + [DeleteArchive];
      assert run.steps[..|before|] == before;
      assert run.steps[..|streamed|] == before[..|streamed|];
    }
    assert run.steps[..|streamed|] == streamed;
  }

  /** An archive that cannot be created or written rejects the action once
      the media has been requested: nothing is shown, unzipped or deleted. */
  lemma UnwritableArchiveRejects(env: LoadEnv, file: DriveFile)
    requires !Missing(file.name) && !Missing(file.id) && !env.archiveWritable
    ensures Download(env, file) == LoadRun([OpenArchive, RequestMedia(file.id.value)], Crashed)
  {
  }

  /** A stream error deletes the partial archive; the unzip that follows then
      finds nothing and the final delete throws. */
  lemma ErrorDeletesArchive(env: LoadEnv, file: DriveFile)
    requires !Missing(file.name) && !Missing(file.id) && env.archiveWritable && env.media.Some?
    requires Finish(env.media.value) == Errored
    ensures DeleteArchive in Download(env, file).steps
    ensures Download(env, file).outcome == (if env.unzipSpawns then Crashed else UnzipFailed)
  {
  }

  /** A loaded world was streamed to its end without error, unzipped into the
      world directory (created first when absent) and the archive deleted last. */
  lemma LoadedCleansUp(env: LoadEnv, file: DriveFile)
    requires Download(env, file).outcome == Loaded
    ensures env.media.Some? && Finish(env.media.value) == Ended
    ensures var steps := Download(env, file).steps;
      && |steps| >= 2
      && steps[|steps| - 1] == DeleteArchive
      && steps[|steps| - 2] == Unzip(env.worldPath)
      && (MakeWorldDir(env.worldPath) in steps <==> !env.worldExists)
      && (forall i :: 0 <= i < |steps| - 1 ==> steps[i] != DeleteArchive)
  {
    DownloadLoaded(env, file);
    FetchCleansUp(env, file.id.value, ExpectedSize(file.size));
  }

  /** A download that loads passed the metadata check and the archive write. */
  lemma DownloadLoaded(env: LoadEnv, file: DriveFile)
    requires Download(env, file).outcome == Loaded
    ensures !Missing(file.name) && !Missing(file.id) && env.archiveWritable
    ensures Download(env, file) == Fetch(env, file.id.value, ExpectedSize(file.size))
  {
  }

  lemma FetchCleansUp(env: LoadEnv, id: string, of: Option<int>)
    requires Fetch(env, id, of).outcome == Loaded
    ensures env.media.Some? && Finish(env.media.value) == Ended
    ensures var steps := Fetch(env, id, of).steps;
      && |steps| >= 2
      && steps[|steps| - 1] == DeleteArchive
      && steps[|steps| - 2] == Unzip(env.worldPath)
      && (MakeWorldDir(env.worldPath) in steps <==> !env.worldExists)
      && (forall i :: 0 <= i < |steps| - 1 ==> steps[i] != DeleteArchive)
  {
    var t := Receive(env.media.value, 0);
    var streamed := [OpenArchive, RequestMedia(id)] + ProgressSteps(t.progress, of);
    assert forall i :: 0 <= i < |streamed| ==> !streamed[i].MakeWorldDir? && !streamed[i].DeleteArchive?;
    assert Fetch(env, id, of) == Unpack(env, streamed, true);
    UnpackShape(env, streamed, true);
  }

  /** Unpacking after steps that neither make the directory nor delete the
      archive: a load ends with the unzip and then the one deletion, and makes
      the directory exactly when it was absent. */
  lemma UnpackShape(env: LoadEnv, before: seq<Step>, archivePresent: bool)
    requires forall i :: 0 <= i < |before| ==> !before[i].MakeWorldDir? && !before[i].DeleteArchive?
    ensures Unpack(env, before, archivePresent).outcome == Loaded ==>
      && archivePresent
      && var steps := Unpack(env, before, archivePresent).steps;
      && |steps| >= 2
      && steps[|steps| - 1] == DeleteArchive
      && steps[|steps| - 2] == Unzip(env.worldPath)
      && (MakeWorldDir(env.worldPath) in steps <==> !env.worldExists)
      && (forall i :: 0 <= i < |steps| - 1 ==> steps[i] != DeleteArchive)
  {
    var made := before + (if env.worldExists then [] else [MakeWorldDir(env.worldPath)]);
    if env.unzipSpawns && archivePresent {
      var steps := made + [Unzip(env.worldPath), DeleteArchive];
      assert Unpack(env, before, archivePresent).steps == steps;
      forall i | 0 <= i < |steps| - 1
        ensures steps[i] != DeleteArchive
      {
        if i < |before| { assert steps[i] == before[i]; }
      }
      if env.worldExists {
        forall i | 0 <= i < |steps|
          ensures steps[i] != MakeWorldDir(env.worldPath)
        {
          if i < |before| { assert steps[i] == before[i]; }
        }
      } else {
        assert steps[|before|] == MakeWorldDir(env.worldPath);
      }
    }
  }
}

=== FILE: session.dfy ===
/** The managed `screen` session: its name, the `screen -ls | grep <name>`
    query that decides whether it is running, and the label the console shows
    for it. The session list is never cached; each query reads it afresh. */
module Session {
  import opened JsText

  const Prefix := "mineworker_"

  /** `mineworker_${serverType}`. */
  function SessionName(serverType: string): (name: string)
    ensures StartsWith(name, Prefix) && name[|Prefix|..] == serverType
  {
    Prefix + serverType
  }

  /** The lines of `lines` that contain `pattern`, in order. */
  function Matching(lines: seq<string>, pattern: string): (m: seq<string>)
    ensures |m| <= |lines|
    ensures forall i :: 0 <= i < |m| ==> Contains(m[i], pattern)
    ensures m == [] <==> forall i :: 0 <= i < |lines| ==> !Contains(lines[i], pattern)
  {
    if |lines| == 0 then []
    else if Contains(lines[0], pattern) then [lines[0]] + Matching(lines[1..], pattern)
    else
      var rest := Matching(lines[1..], pattern);
      assert forall i :: 1 <= i < |lines| ==> lines[i] == lines[1..][i - 1];
      rest
  }

  /** Each line followed by a newline, as grep prints what it selected. */
  function Lines(ls: seq<string>): (out: string)
    ensures out == [] <==> ls == []
  {
    if |ls| == 0 then [] else ls[0] + "\n" + Lines(ls[1..])
  }

  /** The text `screen -ls | grep <pattern>` yields to the console. `listing`
      is what `screen -ls` prints, or `None` when the pipeline cannot run; a
      failing pipeline, and grep finding nothing (exit status 1), both come
      back as the empty string. */
  function GrepOutput(listing: Option<string>, pattern: string): string
  {
    match listing
    case None => ""
    case Some(text) => Lines(Matching(Split(text, '\n'), pattern))
  }

  /** The session counts as running exactly when the query printed something. */
  predicate Running(listing: Option<string>, name: string)
  {
    GrepOutput(listing, name) != ""
  }

  /** Running means some line of a listing that could be read names the
      session; a failed listing means not running. */
  lemma RunningIff(listing: Option<string>, name: string)
    ensures Running(listing, name) <==>
      listing.Some? && exists i :: 0 <= i < |Split(listing.value, '\n')| && Contains(Split(listing.value, '\n')[i], name)
    ensures listing.None? ==> !Running(listing, name)
  {
    if listing.Some? {
      var lines := Split(listing.value, '\n');
      var m := Matching(lines, name);
      assert GrepOutput(listing, name) == Lines(m);
      if m != [] {
        assert Lines(m) != [];
        assert Running(listing, name);
        assert !(forall i :: 0 <= i < |lines| ==> !Contains(lines[i], name));
        var i :| 0 <= i < |lines| && Contains(lines[i], name);
        assert listing.Some? && 0 <= i < |Split(listing.value, '\n')| && Contains(Split(listing.value, '\n')[i], name);
      }
    }
  }

  /** `s.replace(/\t/g, " ")`. */
  function TabsToSpaces(s: string): (r: string)
    ensures |r| == |s|
    ensures '\t' !in r
    ensures forall i :: 0 <= i < |s| ==> r[i] == (if s[i] == '\t' then ' ' else s[i])
  {
    seq(|s|, i requires 0 <= i < |s| => if s[i] == '\t' then ' ' else s[i])
  }

  /** The text after "Session:" on the console's banner:
      `(out.split("\n")[0] || "").trim().replace(/\t/g, " ")`. */
  function SessionLabel(listing: Option<string>, name: string): (shown: string)
    ensures '\t' !in shown
    ensures shown == [] || (!IsWhitespace(shown[0]) && !IsWhitespace(shown[|shown| - 1]))
  {
    TabsToSpaces(Trim(Split(GrepOutput(listing, name), '\n')[0]))
  }

  /** The label is the first matching listing line, trimmed, with its tabs
      turned into spaces; with no match it is empty. */
  lemma {:induction false} LabelIsFirstMatch(listing: Option<string>, name: string)
    ensures var m := if listing.Some? then Matching(Split(listing.value, '\n'), name) else [];
      SessionLabel(listing, name) == (if m == [] then "" else TabsToSpaces(Trim(m[0])))
  {
    var m := if listing.Some? then Matching(Split(listing.value, '\n'), name) else [];
    if m != [] {
      var out := GrepOutput(listing, name);
      var tail := Lines(m[1..]);
      assert out == m[0] + "\n" + tail;
      assert '\n' !in m[0] by {
        MatchingPieces(Split(listing.value, '\n'), name);
      }
      assert out == m[0] + ("\n" + tail);
      FirstPiece(m[0], "\n" + tail);
    } else {
      assert Split("", '\n') == [""];
    }
  }

  lemma {:induction false} MatchingPieces(lines: seq<string>, pattern: string)
    requires forall i :: 0 <= i < |lines| ==> '\n' !in lines[i]
    ensures forall i :: 0 <= i < |Matching(lines, pattern)| ==> '\n' !in Matching(lines, pattern)[i]
    decreases |lines|
  {
    if |lines| > 0 {
      MatchingPieces(lines[1..], pattern);
    }
  }

  lemma FirstPiece(a: string, rest: string)
    requires '\n' !in a && |rest| > 0 && rest[0] == '\n'
    ensures Split(a + rest, '\n')[0] == a
  {
    var s := a + rest;
    assert s[|a|] == '\n';
    assert s[..|a|] == a;
    IndexOfFirst(s, '\n', |a|);
  }

  /** Trimming before or after replacing tabs gives the same label, since a
      tab and a space are both white space. */
  lemma TrimCommutes(s: string)
    ensures TabsToSpaces(Trim(s)) == Trim(TabsToSpaces(s))
  {
    var r := TabsToSpaces(s);
    SpacesKept(s);
    SameSpaces(s, r);
    var lead, trail := LeadingSpace(s), TrailingSpace(s);
    if lead < |s| {
      assert Trim(r) == r[lead..|r| - trail];
      SliceTabs(s, lead, |s| - trail);
    }
  }

  /** Two strings with white space in the same places have the same leading
      and trailing runs of it. */
  lemma SameSpaces(s: string, r: string)
    requires |r| == |s|
    requires forall i :: 0 <= i < |s| ==> (IsWhitespace(r[i]) <==> IsWhitespace(s[i]))
    ensures LeadingSpace(r) == LeadingSpace(s)
    ensures TrailingSpace(r) == TrailingSpace(s)
  {
    LeadingSpaceUnique(r, LeadingSpace(s));
    TrailingSpaceUnique(r, TrailingSpace(s));
  }

  lemma SpacesKept(s: string)
    ensures forall i :: 0 <= i < |s| ==> (IsWhitespace(TabsToSpaces(s)[i]) <==> IsWhitespace(s[i]))
  {
  }

  lemma SliceTabs(s: string, i: nat, j: nat)
    requires i <= j <= |s|
    ensures TabsToSpaces(s[i..j]) == TabsToSpaces(s)[i..j]
  {
  }

  /** `LeadingSpace` is determined by where the first non-space sits. */
  lemma {:induction false} LeadingSpaceUnique(s: string, k: nat)
    requires k <= |s|
    requires forall i :: 0 <= i < k ==> IsWhitespace(s[i])
    requires k < |s| ==> !IsWhitespace(s[k])
    ensures LeadingSpace(s) == k
    decreases k
  {
    if k > 0 {
      LeadingSpaceUnique(s[1..], k - 1);
    }
  }

  lemma {:induction false} TrailingSpaceUnique(s: string, k: nat)
    requires k <= |s|
    requires forall i :: |s| - k <= i < |s| ==> IsWhitespace(s[i])
    requires k < |s| ==> !IsWhitespace(s[|s| - k - 1])
    ensures TrailingSpace(s) == k
    decreases k
  {
    if k > 0 {
      TrailingSpaceUnique(s[..|s| - 1], k - 1);
    }
  }

  /** A line holding a session name is never blank, so the label is empty
      exactly when the session is not running; the banner then shows
      "Not running". */
  lemma {:induction false} LabelEmptyIff(listing: Option<string>, serverType: string)
    ensures SessionLabel(listing, SessionName(serverType)) == "" <==> !Running(listing, SessionName(serverType))
  {
    var name := SessionName(serverType);
    LabelIsFirstMatch(listing, name);
    if listing.Some? {
      var m := Matching(Split(listing.value, '\n'), name);
      if m != [] {
        NotBlank(m[0], name);
      }
    }
  }

  /** A string that contains a session name has a non-space character. */
  lemma {:induction false} NotBlank(s: string, name: string)
    requires Contains(s, name) && StartsWith(name, Prefix)
    ensures Trim(s) != []
    decreases |s|
  {
    if StartsWith(s, name) {
      assert s[0] == 'm';
    } else {
      NotBlank(s[1..], name);
      assert forall i :: 1 <= i < |s| ==> s[1..][i - 1] == s[i];
    }
  }

  const ExampleHeader := "There is a screen on:"
  const ExampleEntry := "\t4242.mineworker_forge\t(Detached)"
  const ExampleFooter := "1 Socket in /run/screen."

  /** A `screen -ls` entry for the forge session becomes a one-line label. */
  lemma LabelExample()
    ensures SessionLabel(Some(ExampleHeader + "\n" + ExampleEntry + "\n" + ExampleFooter), SessionName("forge"))
      == "4242.mineworker_forge (Detached)"
  {
    var text := ExampleHeader + "\n" + ExampleEntry + "\n" + ExampleFooter;
    var name := SessionName("forge");
    ExampleLines();
    ExampleMatches();
    LabelIsFirstMatch(Some(text), name);
    ExampleTrim();
  }

  lemma ExampleLines()
    ensures Split(ExampleHeader + "\n" + ExampleEntry + "\n" + ExampleFooter, '\n') == [ExampleHeader, ExampleEntry, ExampleFooter]
  {
    var l0, l1, l2 := ExampleHeader, ExampleEntry, ExampleFooter;
    ExampleJoin();
    ExampleNoBreaks();
    SplitJoin([l0, l1, l2], '\n');
  }

  lemma ExampleJoin()
    ensures Join([ExampleHeader, ExampleEntry, ExampleFooter], '\n') == ExampleHeader + "\n" + ExampleEntry + "\n" + ExampleFooter
  {
    var l0, l1, l2 := ExampleHeader, ExampleEntry, ExampleFooter;
    assert Join([l1, l2], '\n') == l1 + ['\n'] + l2;
    assert Join([l0, l1, l2], '\n') == l0 + ['\n'] + (l1 + ['\n'] + l2);
  }

  lemma ExampleNoBreaks()
    ensures '\n' !in ExampleHeader && '\n' !in ExampleEntry && '\n' !in ExampleFooter
  {
  }

  lemma ExampleMatches()
    ensures Matching([ExampleHeader, ExampleEntry, ExampleFooter], SessionName("forge")) == [ExampleEntry]
  {
    var name := SessionName("forge");
    ExampleEntryNames();
    ExampleHeaderNames();
    ExampleFooterNames();
    MatchingThree(ExampleHeader, ExampleEntry, ExampleFooter, name);
  }

  lemma MatchingThree(a: string, b: string, c: string, name: string)
    requires !Contains(a, name) && Contains(b, name) && !Contains(c, name)
    ensures Matching([a, b, c], name) == [b]
  {
    var ls := [a, b, c];
    assert ls[1..] == [b, c];
    assert ls[1..][1..] == [c];
    assert Matching([c], name) == [];
  }

  lemma ExampleHeaderNames()
    ensures !Contains(ExampleHeader, SessionName("forge"))
  {
    NoM(ExampleHeader, SessionName("forge"));
  }

  lemma ExampleFooterNames()
    ensures !Contains(ExampleFooter, SessionName("forge"))
  {
    NoM(ExampleFooter, SessionName("forge"));
  }

  lemma ExampleEntryNames()
    ensures Contains(ExampleEntry, SessionName("forge"))
  {
    var l1 := ExampleEntry;
    var name := SessionName("forge");
    assert l1[6..][..|name|] == name;
    ContainsAfterPrefix(l1[..6], l1[6..], name);
    assert l1[..6] + l1[6..] == l1;
  }

  lemma ExampleTrim()
    ensures TabsToSpaces(Trim(ExampleEntry)) == "4242.mineworker_forge (Detached)"
  {
    ExampleTrimmed();
    ExampleTabs();
  }

  lemma ExampleTrimmed()
    ensures Trim(ExampleEntry) == ExampleEntry[1..]
  {
    LeadingSpaceUnique(ExampleEntry, 1);
    assert TrailingSpace(ExampleEntry) == 0;
  }

  lemma ExampleTabs()
    ensures TabsToSpaces(ExampleEntry[1..]) == "4242.mineworker_forge (Detached)"
  {
  }

  /** A string with no `m` in it cannot contain a session name. */
  lemma {:induction false} NoM(s: string, name: string)
    requires 'm' !in s && StartsWith(name, Prefix)
    ensures !Contains(s, name)
    decreases |s|
  {
    if |s| > 0 {
      assert s[1..] <= s[1..];
      assert forall c :: c in s[1..] ==> c in s;
      NoM(s[1..], name);
    }
  }
}

=== FILE: start.dfy ===
/** Starting the server: an ordered ladder of guards (world directory,
    config file, config record, server type, not already running), then
    spawning the world's `run.sh`. Reading the config record and listing the
    screen sessions are inputs; the spawned process's output is not modelled
    beyond how its stream ends, which the console takes as an input. */
module Start {
  import opened JsText
  import opened ConfigFile
  import opened Session

  datatype StartEnv = StartEnv(
    worldPath: string,
    worldExists: bool,
    configFileExists: bool,       // `mineworker_config.json` in the world directory
    configThrows: bool,           // reading the config throws instead of returning
    config: Option<ServerConfig>, // what reading the config yields; None when it cannot be loaded
    listing: Option<string>)      // `screen -ls` output; None when the pipeline fails

  datatype StartOutcome =
    | WorldMissing
    | ConfigMissing
    | ConfigUnreadable
    | ConfigThrew      // the read threw: the action's promise rejects
    | Unsupported(serverType: string)
    | AlreadyRunning
    | Spawned(command: string, cwd: string)

  /** The session query made (if the ladder got that far) and the outcome. */
  datatype StartRun = StartRun(queried: Option<string>, outcome: StartOutcome)

  /** The message shown for each refusal; a read that throws shows none, as
      the error leaves the action. */
  function Message(worldPath: string, o: StartOutcome): string
  {
    match o
    case WorldMissing => "World path \"" + worldPath + "\" does not exist."
    case ConfigMissing =>
      "Configuration file \"" + ConfigFileName + "\" does not exist in the world directory.\nPlease run the install command first."
    case ConfigUnreadable =>
      "Failed to load configuration from \"" + ConfigFileName + "\". Please check the file format."
    case ConfigThrew => ""
    case Unsupported(t) => "Server Type \"" + t + "\" is not supported yet. Please run the install command first."
    case AlreadyRunning => "Server is already running. Please stop it first before starting again."
    case Spawned(_, cwd) => "Forge server started successfully in world directory \"" + cwd + "\"."
  }

  /** The start action. */
  function StartServer(env: StartEnv): (r: StartRun)
    ensures r.queried.Some? ==> r.queried == Some(SessionName("forge"))
    ensures r.queried.None? ==> !r.outcome.Spawned? && !r.outcome.AlreadyRunning?
    ensures r.outcome.AlreadyRunning? ==> Running(env.listing, SessionName("forge"))
    ensures r.outcome.Spawned? ==>
      && !Running(env.listing, SessionName("forge"))
      && r.outcome.command == env.worldPath + "/run.sh" && r.outcome.cwd == env.worldPath
  {
    if !env.worldExists then StartRun(None, WorldMissing)
    else if !env.configFileExists then StartRun(None, ConfigMissing)
    else if env.configThrows then StartRun(None, ConfigThrew)
    else
      match env.config
      case None => StartRun(None, ConfigUnreadable)
      case Some(config) =>
        if config.serverType != "forge" then StartRun(None, Unsupported(config.serverType))
        else
          var name := SessionName(config.serverType);
          if Running(env.listing, name) then StartRun(Some(name), AlreadyRunning)
          else StartRun(Some(name), Spawned(env.worldPath + "/run.sh", env.worldPath))
  }

  /** All guards pass. */
  predicate Ready(env: StartEnv)
  {
    env.worldExists && env.configFileExists && !env.configThrows && env.config.Some? && env.config.value.serverType == "forge"
  }

  /** The server is spawned exactly when every guard passes and no session of
      its type is listed; what is spawned is the world's `run.sh`, run in the
      world directory. Anything else spawns nothing. */
  lemma SpawnsIff(env: StartEnv)
    ensures StartServer(env).outcome.Spawned? <==> Ready(env) && !Running(env.listing, SessionName("forge"))
    ensures StartServer(env).outcome.Spawned? ==>
      StartServer(env).outcome == Spawned(env.worldPath + "/run.sh", env.worldPath)
  {
  }

  /** Which guard fails first: 0 for the world directory, up to 4 for the
      running check, 5 when none does. */
  function FailingGuard(env: StartEnv): (k: nat)
    ensures k <= 5
    ensures k == 5 <==> Ready(env) && !Running(env.listing, SessionName("forge"))
  {
    if !env.worldExists then 0
    else if !env.configFileExists then 1
    else if env.configThrows || env.config.None? then 2
    else if env.config.value.serverType != "forge" then 3
    else if Running(env.listing, SessionName("forge")) then 4
    else 5
  }

  /** The facts the guards up to `k` look at. */
  predicate AgreeUpTo(a: StartEnv, b: StartEnv, k: nat)
  {
    && a.worldPath == b.worldPath
    && a.worldExists == b.worldExists
    && (k >= 1 ==> a.configFileExists == b.configFileExists)
    && (k >= 2 ==> a.configThrows == b.configThrows && a.config == b.config)
    && (k >= 4 ==> Running(a.listing, SessionName("forge")) == Running(b.listing, SessionName("forge")))
  }

  /** The first failing guard decides the outcome: two environments that agree
      on what that guard and the ones before it look at end the same way,
      however they differ in what later guards would have looked at. */
  lemma FirstFailingGuardDecides(a: StartEnv, b: StartEnv)
    requires AgreeUpTo(a, b, FailingGuard(a))
    ensures FailingGuard(b) == FailingGuard(a)
    ensures StartServer(b) == StartServer(a)
  {
  }

  /** A failing `screen -ls` pipeline counts as "not running": it starts the
      server exactly as an empty listing would. */
  lemma ListingFailureIsNotRunning(env: StartEnv)
    ensures StartServer(env.(listing := None)) == StartServer(env.(listing := Some("")))
    ensures Ready(env) ==> StartServer(env.(listing := None)).outcome.Spawned?
  {
    assert Split("", '\n') == [""];
    assert !Contains("", SessionName("forge"));
  }

  /** The session queried is `mineworker_<serverType>` of the record read, and
      it is only queried for a forge record. */
  lemma QueriedSession(env: StartEnv)
    ensures StartServer(env).queried.Some? <==> Ready(env)
    ensures StartServer(env).queried.Some? ==>
      StartServer(env).queried.value == SessionName(env.config.value.serverType)
      && StartServer(env).queried.value == "mineworker_forge"
  {
  }

  /** A record naming another server type is refused with that type in the
      message, before any session query. */
  lemma UnsupportedNamed(env: StartEnv)
    requires env.worldExists && env.configFileExists && !env.configThrows && env.config.Some?
    requires env.config.value.serverType != "forge"
    ensures StartServer(env) == StartRun(None, Unsupported(env.config.value.serverType))
    ensures Message(env.worldPath, StartServer(env).outcome)
      == "Server Type \"" + env.config.value.serverType + "\" is not supported yet. Please run the install command first."
  {
  }
}

=== FILE: upload.dfy ===
/** Backing a world up: zip it as `<time>.zip` next to the world directory,
    open a resumable upload session on the drive, and PUT the archive in the
    chunks the file stream yields, each labelled with a `Content-Range` header
    (`bytes <first>-<last>/<total>`, section 14.4 of RFC 9110). Zipping,
    authentication, the file system and the HTTP exchanges are inputs. */
module Upload {
  import opened JsText
  import opened Decimal

  /** The read stream's `highWaterMark`: 5 MiB. */
  const ChunkSize: nat := 5 * 1024 * 1024

  // ---------------------------------------------------------------- names

  function DropComma(c: char): string
  {
    if c == ',' then "" else [c]
  }

  function SlashToDash(c: char): string
  {
    if c == '/' then "-" else [c]
  }

  function ColonToDash(c: char): string
  {
    if c == ':' then "-" else [c]
  }

  function SpaceToDash(c: char): string
  {
    if IsWhitespace(c) then "-" else [c]
  }

  /** Characters that never survive into an archive name. */
  predicate Unsafe(c: char)
  {
    c == ',' || c == '/' || c == ':' || IsWhitespace(c)
  }

  predicate Clean(s: string)
  {
    forall i :: 0 <= i < |s| ==> !Unsafe(s[i])
  }

  /** What the four replacements together do to one character. */
  function SafeChar(c: char): (e: string)
    ensures Clean(e)
  {
    if c == ',' then "" else if Unsafe(c) then "-" else [c]
  }

  /** The locale time string with every `,` removed and every `/`, `:` and
      white-space character replaced by `-`, applied as four successive global
      replacements. */
  function SanitizeTime(time: string): (r: string)
    ensures Clean(r)
    ensures Clean(time) ==> r == time
    ensures |r| <= |time|
  {
    SanitizeOnePass(time);
    CleanMapChars(time);
    MapChars(MapChars(MapChars(MapChars(time, DropComma), SlashToDash), ColonToDash), SpaceToDash)
  }

  /** The four passes agree with replacing each character once. */
  lemma {:induction false} SanitizeOnePass(time: string)
    ensures MapChars(MapChars(MapChars(MapChars(time, DropComma), SlashToDash), ColonToDash), SpaceToDash)
      == MapChars(time, SafeChar)
    decreases |time|
  {
    if |time| > 0 {
      var c, rest := time[0], time[1..];
      var m1 := MapChars(rest, DropComma);
      var m2 := MapChars(m1, SlashToDash);
      var m3 := MapChars(m2, ColonToDash);
      MapCharsAppend(DropComma(c), m1, SlashToDash);
      MapCharsAppend(MapChars(DropComma(c), SlashToDash), m2, ColonToDash);
      MapCharsAppend(MapChars(MapChars(DropComma(c), SlashToDash), ColonToDash), m3, SpaceToDash);
      SanitizeOnePass(rest);
      OneChar(c);
    }
  }

  lemma OneChar(c: char)
    ensures MapChars(MapChars(MapChars(DropComma(c), SlashToDash), ColonToDash), SpaceToDash) == SafeChar(c)
  {
    if c == ',' {
    } else if Unsafe(c) {
      assert "-"[1..] == [];
    } else {
      assert [c][1..] == [];
    }
  }

  /** Replacing each character once leaves nothing unsafe, keeps a clean
      string as it is, and never lengthens it. */
  lemma {:induction false} CleanMapChars(s: string)
    ensures Clean(MapChars(s, SafeChar))
    ensures Clean(s) ==> MapChars(s, SafeChar) == s
    ensures |MapChars(s, SafeChar)| <= |s|
    decreases |s|
  {
    if |s| > 0 {
      CleanMapChars(s[1..]);
      var head, tail := SafeChar(s[0]), MapChars(s[1..], SafeChar);
      assert forall j :: |head| <= j < |head + tail| ==> (head + tail)[j] == tail[j - |head|];
      if Clean(s) {
        assert Clean(s[1..]);
        assert [s[0]] + s[1..] == s;
      }
    }
  }

  /** Sanitising twice is sanitising once. */
  lemma SanitizeIdempotent(time: string)
    ensures SanitizeTime(SanitizeTime(time)) == SanitizeTime(time)
  {
  }

  /** The archive's file name, `${time}.zip`. */
  function ArchiveName(time: string): string
  {
    SanitizeTime(time) + ".zip"
  }

  /** The name is one path segment: no separator, no white space, no `:` or
      `,`; it ends in `.zip` and its stem is the sanitised time. */
  lemma ArchiveNameShape(time: string)
    ensures var n := ArchiveName(time);
      '/' !in n && NoWhitespace(n) && ':' !in n && ',' !in n
      && EndsWith(n, ".zip") && n[..|n| - 4] == SanitizeTime(time)
  {
    var s := SanitizeTime(time);
    var n := s + ".zip";
    assert n[..|s|] == s && n[|s|..] == ".zip";
    assert Clean(".zip");
    assert Clean(n) by {
      forall i | 0 <= i < |n|
        ensures !Unsafe(n[i])
      {
        if i < |s| { assert n[i] == s[i]; } else { assert n[i] == ".zip"[i - |s|]; }
      }
    }
    CleanShape(n);
  }

  /** A clean string holds no separator, comma or white space. */
  lemma CleanShape(n: string)
    requires Clean(n)
    ensures '/' !in n && NoWhitespace(n) && ':' !in n && ',' !in n
  {
    forall i | 0 <= i < |n|
      ensures n[i] != '/' && n[i] != ':' && n[i] != ',' && !IsWhitespace(n[i])
    {
      assert !Unsafe(n[i]);
    }
  }

  /** Replacing around one separator between a clean part and the rest. */
  lemma Separated(a: string, c: char, b: string)
    requires Clean(a)
    ensures MapChars(a + [c] + b, SafeChar) == a + SafeChar(c) + MapChars(b, SafeChar)
  {
    MapCharsAppend(a, [c] + b, SafeChar);
    assert a + [c] + b == a + ([c] + b);
    assert ([c] + b)[1..] == b;
    CleanMapChars(a);
  }

  lemma SeparatorsReplaced()
    ensures SafeChar('/') == "-" && SafeChar(':') == "-" && SafeChar(' ') == "-" && SafeChar(',') == ""
  {
  }

  lemma ClockMap(h: string, mi: string, sec: string, ap: string)
    requires Clean(h) && Clean(mi) && Clean(sec) && Clean(ap)
    ensures MapChars(h + ":" + (mi + ":" + (sec + " " + ap)), SafeChar)
      == h + "-" + (mi + "-" + (sec + "-" + ap))
  {
    SeparatorsReplaced();
    CleanMapChars(ap);
    var u6 := sec + " " + ap;
    Separated(sec, ' ', ap);
    var r6 := sec + "-" + ap;
    assert MapChars(u6, SafeChar) == r6;
    Separated(mi, ':', u6);
    var r5 := mi + "-" + r6;
    assert MapChars(mi + ":" + u6, SafeChar) == r5;
    Separated(h, ':', mi + ":" + u6);
  }

  lemma YearMap(y: string, b: string, rb: string)
    requires Clean(y) && MapChars(b, SafeChar) == rb
    ensures MapChars(y + "," + b, SafeChar) == y + rb
  {
    SeparatorsReplaced();
    Separated(y, ',', b);
  }

  lemma LocaleTimeMap(mo: string, d: string, y: string, clock: string, rclock: string)
    requires Clean(mo) && Clean(d) && Clean(y)
    requires MapChars(clock, SafeChar) == rclock
    ensures MapChars(mo + "/" + (d + "/" + (y + "," + (" " + clock))), SafeChar)
      == mo + "-" + (d + "-" + (y + ("-" + rclock)))
  {
    SeparatorsReplaced();
    var u3 := " " + clock;
    assert u3[1..] == clock;
    var r3 := "-" + rclock;
    assert MapChars(u3, SafeChar) == r3;
    YearMap(y, u3, r3);
    var u2 := y + "," + u3;
    var r2 := y + r3;
    assert MapChars(u2, SafeChar) == r2;
    var u1 := d + "/" + u2;
    Separated(d, '/', u2);
    var r1 := d + "-" + r2;
    assert MapChars(u1, SafeChar) == r1;
    Separated(mo, '/', u1);
  }

  /** An en-US locale time string `M/D/YYYY, h:mm:ss AM` becomes
      `M-D-YYYY-h-mm-ss-AM`: slashes, colons and the space turn into dashes
      and the comma goes. */
  lemma SanitizeLocaleTime(mo: string, d: string, y: string, h: string, mi: string, sec: string, ap: string)
    requires Clean(mo) && Clean(d) && Clean(y) && Clean(h) && Clean(mi) && Clean(sec) && Clean(ap)
    ensures SanitizeTime(mo + "/" + d + "/" + y + ", " + h + ":" + mi + ":" + sec + " " + ap)
      == mo + "-" + d + "-" + y + "-" + h + "-" + mi + "-" + sec + "-" + ap
  {
    var clock := h + ":" + (mi + ":" + (sec + " " + ap));
    var t := mo + "/" + (d + "/" + (y + "," + (" " + clock)));
    ClockMap(h, mi, sec, ap);
    LocaleTimeMap(mo, d, y, clock, h + "-" + (mi + "-" + (sec + "-" + ap)));
    SanitizeOnePass(t);
    LocaleTimeNested(mo, d, y, h, mi, sec, ap);
    DashedNested(mo, d, y, h, mi, sec, ap);
  }

  /** The locale time string, regrouped from the right. */
  lemma LocaleTimeNested(mo: string, d: string, y: string, h: string, mi: string, sec: string, ap: string)
    ensures mo + "/" + d + "/" + y + ", " + h + ":" + mi + ":" + sec + " " + ap
      == mo + "/" + (d + "/" + (y + "," + (" " + (h + ":" + (mi + ":" + (sec + " " + ap))))))
  {
    assert ", " == "," + " ";
  }

  /** The dashed name, regrouped from the right. */
  lemma DashedNested(mo: string, d: string, y: string, h: string, mi: string, sec: string, ap: string)
    ensures mo + "-" + d + "-" + y + "-" + h + "-" + mi + "-" + sec + "-" + ap
      == mo + "-" + (d + "-" + (y + ("-" + (h + "-" + (mi + "-" + (sec + "-" + ap))))))
  {
  }

  // --------------------------------------------------------------- ranges

  datatype ContentRange = ContentRange(first: nat, last: int, total: nat)

  function Sum(lens: seq<nat>): nat
  {
    if |lens| == 0 then 0 else lens[0] + Sum(lens[1..])
  }

  lemma {:induction false} SumAppend(a: seq<nat>, b: seq<nat>)
    ensures Sum(a + b) == Sum(a) + Sum(b)
    decreases |a|
  {
    if |a| == 0 {
      assert a + b == b;
    } else {
      assert (a + b)[1..] == a[1..] + b;
      SumAppend(a[1..], b);
    }
  }

  /** A prefix one element longer adds that element. */
  lemma SumSnoc(lens: seq<nat>, i: nat)
    requires i < |lens|
    ensures Sum(lens[..i + 1]) == Sum(lens[..i]) + lens[i]
  {
    assert lens[..i + 1] == lens[..i] + [lens[i]];
    SumAppend(lens[..i], [lens[i]]);
  }

  lemma {:induction false} SumPrefixMonotone(lens: seq<nat>, i: nat, j: nat)
    requires i <= j <= |lens|
    ensures Sum(lens[..i]) <= Sum(lens[..j])
    decreases j - i
  {
    if i < j {
      SumSnoc(lens, j - 1);
      SumPrefixMonotone(lens, i, j - 1);
    }
  }

  /** The header range of every chunk: it starts at the bytes uploaded before
      it and covers the chunk's own length. */
  function Ranges(uploaded: nat, total: nat, lens: seq<nat>): (rs: seq<ContentRange>)
    ensures |rs| == |lens|
    ensures forall i :: 0 <= i < |lens| ==>
      && rs[i].first == uploaded + Sum(lens[..i])
      && rs[i].last == rs[i].first + lens[i] - 1
      && rs[i].total == total
    decreases |lens|
  {
    if |lens| == 0 then []
    else
      var rest := Ranges(uploaded + lens[0], total, lens[1..]);
      var rs := [ContentRange(uploaded, uploaded + lens[0] - 1, total)] + rest;
      assert forall i :: 1 <= i < |lens| ==> Sum(lens[..i]) == lens[0] + Sum(lens[1..][..i - 1]) by {
        forall i | 1 <= i < |lens|
          ensures Sum(lens[..i]) == lens[0] + Sum(lens[1..][..i - 1])
        {
          assert lens[..i][1..] == lens[1..][..i - 1];
        }
      }
      rs
  }

  /** Consecutive ranges touch: each starts one past where the previous ended. */
  lemma RangesContiguous(uploaded: nat, total: nat, lens: seq<nat>)
    ensures var rs := Ranges(uploaded, total, lens);
      forall i :: 0 <= i < |rs| - 1 ==> rs[i + 1].first == rs[i].last + 1
  {
    var rs := Ranges(uploaded, total, lens);
    forall i | 0 <= i < |rs| - 1
      ensures rs[i + 1].first == rs[i].last + 1
    {
      SumSnoc(lens, i);
    }
  }

  /** With chunks that are never empty, the ranges are strictly ordered and
      never overlap. */
  lemma RangesDisjoint(uploaded: nat, total: nat, lens: seq<nat>)
    requires forall i :: 0 <= i < |lens| ==> lens[i] > 0
    ensures var rs := Ranges(uploaded, total, lens);
      forall i, j :: 0 <= i < j < |rs| ==> rs[i].first <= rs[i].last < rs[j].first
  {
    var rs := Ranges(uploaded, total, lens);
    forall i, j | 0 <= i < j < |rs|
      ensures rs[i].first <= rs[i].last < rs[j].first
    {
      SumSnoc(lens, i);
      SumPrefixMonotone(lens, i + 1, j);
    }
  }

  /** The last range ends at the last byte sent; when the chunks are the whole
      file, that is byte `total - 1`. */
  lemma LastRangeEnd(total: nat, lens: seq<nat>)
    requires |lens| > 0
    ensures var rs := Ranges(0, total, lens);
      rs[|rs| - 1].last == Sum(lens) - 1
      && (Sum(lens) == total ==> rs[|rs| - 1].last == total - 1)
  {
    SumSnoc(lens, |lens| - 1);
    assert lens[..|lens|] == lens;
  }

  /** The values of the uploaded-bytes counter after each chunk. */
  function Progress(lens: seq<nat>): (p: seq<nat>)
    ensures |p| == |lens|
    ensures forall i :: 0 <= i < |lens| ==> p[i] == Sum(lens[..i + 1])
  {
    seq(|lens|, i requires 0 <= i < |lens| => Sum(lens[..i + 1]))
  }

  /** The counter never goes down and ends at the size of everything sent. */
  lemma ProgressMonotone(lens: seq<nat>)
    ensures forall i, j :: 0 <= i <= j < |lens| ==> Progress(lens)[i] <= Progress(lens)[j]
    ensures |lens| > 0 ==> Progress(lens)[|lens| - 1] == Sum(lens)
  {
    var p := Progress(lens);
    forall i, j | 0 <= i <= j < |lens|
      ensures p[i] <= p[j]
    {
      SumPrefixMonotone(lens, i + 1, j + 1);
    }
    if |lens| > 0 {
      assert p[|lens| - 1] == Sum(lens[..|lens|]);
      assert lens[..|lens|] == lens;
    }
  }

  /** The chunk lengths a file read stream yields for a file of `size` bytes
      with a buffer of `c` bytes: full buffers, then whatever is left. */
  function StreamLengths(size: nat, c: nat): (lens: seq<nat>)
    requires c > 0
    ensures Sum(lens) == size
    ensures forall i :: 0 <= i < |lens| ==> 0 < lens[i] <= c
    ensures forall i :: 0 <= i < |lens| - 1 ==> lens[i] == c
    decreases size
  {
    if size == 0 then []
    else if size <= c then [size]
    else [c] + StreamLengths(size - c, c)
  }

  /** A 12 MiB archive goes up in three requests. */
  lemma TwelveMiBExample()
    ensures StreamLengths(12 * 1024 * 1024, ChunkSize) == [5242880, 5242880, 2097152]
    ensures Ranges(0, 12582912, [5242880, 5242880, 2097152]) == [
      ContentRange(0, 5242879, 12582912),
      ContentRange(5242880, 10485759, 12582912),
      ContentRange(10485760, 12582911, 12582912)]
  {
    assert StreamLengths(2097152, ChunkSize) == [2097152];
    assert StreamLengths(7340032, ChunkSize) == [5242880, 2097152];
    var lens := [5242880, 5242880, 2097152];
    assert lens[..1] == [5242880];
    assert lens[..2] == [5242880, 5242880];
  }

  // -------------------------------------------------------------- headers

  /** The `Content-Range` header value. */
  function RangeHeader(r: ContentRange): string
  {
    "bytes " + (NatToString(r.first) + ("-" + (IntToString(r.last) + ("/" + NatToString(r.total)))))
  }

  /** A run of decimal digits at the front of `s`: its value and what follows. */
  function ReadNat(s: string): Option<(nat, string)>
  {
    var k := DigitRun(s);
    if k == 0 then None else Some((DigitsValue(s[..k]), s[k..]))
  }

  /** An optional minus sign and a run of decimal digits. */
  function ReadInt(s: string): Option<(int, string)>
  {
    if |s| > 0 && s[0] == '-' then
      match ReadNat(s[1..])
      case None => None
      case Some((n, rest)) =>
        var v: int := n;
        Some((-v, rest))
    else
      match ReadNat(s)
      case None => None
      case Some((n, rest)) => Some((n, rest))
  }

  /** Reads a header of the form `RangeHeader` writes; anything else is `None`. */
  function ParseRangeHeader(h: string): Option<ContentRange>
  {
    if !StartsWith(h, "bytes ") then None
    else
      match ReadNat(h[6..])
      case None => None
      case Some((first, r1)) =>
        if |r1| == 0 || r1[0] != '-' then None
        else
          match ReadInt(r1[1..])
          case None => None
          case Some((last, r2)) =>
            if |r2| == 0 || r2[0] != '/' then None
            else
              match ReadNat(r2[1..])
              case None => None
              case Some((total, r3)) =>
                if r3 != [] then None else Some(ContentRange(first, last, total))
  }

  lemma ReadNatOf(n: nat, rest: string)
    requires rest == [] || !IsDigit(rest[0])
    ensures ReadNat(NatToString(n) + rest) == Some((n, rest))
  {
    var d := NatToString(n);
    NatToStringRun(n, rest);
    assert (d + rest)[..|d|] == d;
    assert (d + rest)[|d|..] == rest;
  }

  lemma ReadIntOf(i: int, rest: string)
    requires rest == [] || !IsDigit(rest[0])
    ensures ReadInt(IntToString(i) + rest) == Some((i, rest))
  {
    if i < 0 {
      assert IntToString(i) == "-" + NatToString(-i);
      ReadNegativeOf(-i, rest);
    } else {
      assert IntToString(i) == NatToString(i);
      ReadDigitsOf(i, rest);
    }
  }

  /** The digits of `n`, with no sign. */
  lemma ReadDigitsOf(n: nat, rest: string)
    requires rest == [] || !IsDigit(rest[0])
    ensures ReadInt(NatToString(n) + rest) == Some((n as int, rest))
  {
    var d := NatToString(n);
    var s := d + rest;
    assert s[0] == d[0] && IsDigit(d[0]);
    ReadNatOf(n, rest);
  }

  /** A minus sign, then the digits of `n`. */
  lemma ReadNegativeOf(n: nat, rest: string)
    requires n > 0
    requires rest == [] || !IsDigit(rest[0])
    ensures ReadInt("-" + NatToString(n) + rest) == Some((-(n as int), rest))
  {
    var s := "-" + NatToString(n) + rest;
    assert s[0] == '-' && s[1..] == NatToString(n) + rest;
    ReadNatOf(n, rest);
  }

  /** Every header the upload writes names its range unambiguously. */
  lemma RangeHeaderRoundTrip(r: ContentRange)
    ensures ParseRangeHeader(RangeHeader(r)) == Some(r)
  {
    var t := NatToString(r.total);
    var r2 := "/" + t;
    var r1 := "-" + (IntToString(r.last) + r2);
    var h := RangeHeader(r);
    assert h == "bytes " + (NatToString(r.first) + r1);
    assert h[6..] == NatToString(r.first) + r1;
    ReadNatOf(r.first, r1);
    assert r1[1..] == IntToString(r.last) + r2;
    ReadIntOf(r.last, r2);
    assert r2[1..] == t;
    ReadNatOf(r.total, []);
    assert t + [] == t;
  }

  // --------------------------------------------------------- the exchange

  /** axios' `validateStatus` for the chunk PUTs. */
  predicate Accepted(status: int)
  {
    status == 200 || status == 201 || status == 308
  }

  /** What a PUT came back with: a status and possibly the file's metadata id,
      or no response at all. */
  datatype Reply = Status(code: int, fileId: Option<string>) | Unreachable

  predicate Delivered(r: Reply)
  {
    r.Status? && Accepted(r.code)
  }

  /** One chunk of the stream and the reply its PUT would get. */
  datatype Chunk = Chunk(length: nat, reply: Reply)

  function Lengths(chunks: seq<Chunk>): (lens: seq<nat>)
    ensures |lens| == |chunks|
    ensures forall i :: 0 <= i < |chunks| ==> lens[i] == chunks[i].length
  {
    seq(|chunks|, i requires 0 <= i < |chunks| => chunks[i].length)
  }

  /** Index of the first chunk whose PUT is not accepted, or the number of
      chunks when every one is. */
  function FirstRejected(chunks: seq<Chunk>): (k: nat)
    ensures k <= |chunks|
    ensures forall i :: 0 <= i < k ==> Delivered(chunks[i].reply)
    ensures k < |chunks| ==> !Delivered(chunks[k].reply)
  {
    if |chunks| == 0 || !Delivered(chunks[0].reply) then 0
    else 1 + FirstRejected(chunks[1..])
  }

  /** How many PUTs go out: every chunk up to and including the first one
      that is refused. */
  function SentCount(chunks: seq<Chunk>): nat
  {
    var k := FirstRejected(chunks);
    if k < |chunks| then k + 1 else |chunks|
  }

  /** The `for await` chunk loop: one PUT per chunk, stopping at the first
      refused one (axios throws, which ends the loop). */
  method SendChunks(total: nat, chunks: seq<Chunk>) returns (sent: seq<ContentRange>, uploadedBytes: nat, ok: bool)
    ensures sent == Ranges(0, total, Lengths(chunks))[..SentCount(chunks)]
    ensures ok <==> forall i :: 0 <= i < |chunks| ==> Delivered(chunks[i].reply)
    ensures ok ==> uploadedBytes == Sum(Lengths(chunks))
    ensures !ok ==> uploadedBytes == Sum(Lengths(chunks)[..FirstRejected(chunks)])
  {
    ghost var lens := Lengths(chunks);
    ghost var rs := Ranges(0, total, lens);
    sent := [];
    uploadedBytes := 0;
    var n := 0;
    while n < |chunks|
      invariant 0 <= n <= |chunks|
      invariant n <= FirstRejected(chunks)
      invariant uploadedBytes == Sum(lens[..n])
      invariant sent == rs[..n]
    {
      var chunkSize := chunks[n].length;
      var range := ContentRange(uploadedBytes, uploadedBytes + chunkSize - 1, total);
      assert rs[n] == range;
      assert rs[..n + 1] == rs[..n] + [rs[n]];
      sent := sent + [range];
      if !Delivered(chunks[n].reply) {
        assert FirstRejected(chunks) == n;
        ok := false;
        return;
      }
      SumSnoc(lens, n);
      uploadedBytes := uploadedBytes + chunkSize;
      n := n + 1;
    }
    ok := true;
    assert lens[..n] == lens;
    assert rs[..n] == rs;
  }

  // ------------------------------------------------------------ the action

  /** What the session-initiation POST came back with: the `location` header
      and the response body's file id, or an error. */
  datatype InitReply = InitReply(location: Option<string>, fileId: Option<string>) | InitError

  datatype UploadEnv = UploadEnv(
    time: string,          // the locale time string
    zipped: bool,          // archiving finished without error
    authed: bool,          // an authentication object came back
    archiveExists: bool,   // the archive is on disk when checked
    fileSize: nat,         // its size as `statSync` reports it
    init: InitReply,
    chunks: seq<Chunk>)    // what the read stream yields, with replies

  /** The externally visible steps, in order. */
  datatype Step = Zip | Authenticate | Initiate(name: string, size: nat) | Put(url: string, range: ContentRange)

  datatype UploadOutcome = ZipFailed | AuthFailed | ArchiveMissing | NoUploadUrl | Failed | Uploaded(fileId: Option<string>)

  datatype UploadRun = UploadRun(steps: seq<Step>, outcome: UploadOutcome)

  function Puts(url: string, rs: seq<ContentRange>): (ps: seq<Step>)
    ensures |ps| == |rs|
    ensures forall i :: 0 <= i < |rs| ==> ps[i] == Put(url, rs[i])
  {
    seq(|rs|, i requires 0 <= i < |rs| => Put(url, rs[i]))
  }

  /** The id the drive returns with the reply to the final chunk. */
  function FinalFileId(chunks: seq<Chunk>): Option<string>
  {
    if |chunks| == 0 then None
    else
      var r := chunks[|chunks| - 1].reply;
      if r.Status? then r.fileId else None
  }

  /** The upload action. After the last chunk it reports either the file id
      of the initiation response's body (`reportFinal` false, the code as
      written) or the one the drive returned with the final chunk (true, as
      evidently intended); nothing else differs. */
  function RunUpload(env: UploadEnv, reportFinal: bool): (run: UploadRun)
    ensures !env.zipped ==> run == UploadRun([Zip], ZipFailed)
    ensures (exists i :: 0 <= i < |run.steps| && run.steps[i].Put?) ==>
      && env.zipped && env.authed && env.archiveExists && env.init.InitReply?
      && env.init.location.Some? && env.init.location.value != ""
  {
    if !env.zipped then UploadRun([Zip], ZipFailed)
    else if !env.authed then UploadRun([Zip, Authenticate], AuthFailed)
    else if !env.archiveExists then UploadRun([Zip, Authenticate], ArchiveMissing)
    else
      var begun := [Zip, Authenticate, Initiate(ArchiveName(env.time), env.fileSize)];
      match env.init
      case InitError => UploadRun(begun, Failed)
      case InitReply(location, initId) =>
        if location.None? || location.value == "" then UploadRun(begun, NoUploadUrl)
        else
          var sent := Ranges(0, env.fileSize, Lengths(env.chunks))[..SentCount(env.chunks)];
          var steps := begun + Puts(location.value, sent);
          assert forall i :: 0 <= i < 3 ==> !steps[i].Put?;
          if FirstRejected(env.chunks) < |env.chunks| then UploadRun(steps, Failed)
          else UploadRun(steps, Uploaded(if reportFinal then FinalFileId(env.chunks) else initId))
  }

  /** The action as the code is written. */
  function UploadAsWritten(env: UploadEnv): UploadRun
  {
    RunUpload(env, false)
  }

  /** The action reporting the final chunk's file id, as evidently intended;
      not the program's behaviour. */
  function UploadCorrected(env: UploadEnv): UploadRun
  {
    RunUpload(env, true)
  }

  /** The PUTs of an upload, in order. */
  function PutRanges(run: UploadRun): seq<ContentRange>
  {
    if |run.steps| < 3 then [] else
    seq(|run.steps| - 3, i requires 0 <= i < |run.steps| - 3 =>
      if run.steps[i + 3].Put? then run.steps[i + 3].range else ContentRange(0, 0, 0))
  }

  /** Once the session is open, the PUTs carry the ranges of the chunks in
      order, stop right after the first refused one, and the upload succeeds
      exactly when every chunk was accepted; it then reports every byte sent. */
  lemma UploadSendsChunks(env: UploadEnv, reportFinal: bool)
    requires env.zipped && env.authed && env.archiveExists
    requires env.init.InitReply? && env.init.location.Some? && env.init.location.value != ""
    ensures var run := RunUpload(env, reportFinal);
      var lens := Lengths(env.chunks);
      && PutRanges(run) == Ranges(0, env.fileSize, lens)[..SentCount(env.chunks)]
      && (run.outcome.Uploaded? <==> forall i :: 0 <= i < |env.chunks| ==> Delivered(env.chunks[i].reply))
      && (run.outcome.Uploaded? ==> |PutRanges(run)| == |env.chunks|)
      && (!run.outcome.Uploaded? ==>
            run.outcome == Failed
            && |PutRanges(run)| == FirstRejected(env.chunks) + 1
            && !Delivered(env.chunks[|PutRanges(run)| - 1].reply))
  {
    var run := RunUpload(env, reportFinal);
    var sent := Ranges(0, env.fileSize, Lengths(env.chunks))[..SentCount(env.chunks)];
    var begun := [Zip, Authenticate, Initiate(ArchiveName(env.time), env.fileSize)];
    assert run.steps == begun + Puts(env.init.location.value, sent);
    assert run.steps[3..] == Puts(env.init.location.value, sent);
    assert PutRanges(run) == sent;
  }

  /** Without a session URL nothing is PUT. */
  lemma NoUrlNoChunks(env: UploadEnv, reportFinal: bool)
    requires env.init.InitReply? && (env.init.location.None? || env.init.location.value == "")
    ensures forall i :: 0 <= i < |RunUpload(env, reportFinal).steps| ==> !RunUpload(env, reportFinal).steps[i].Put?
    ensures env.zipped && env.authed && env.archiveExists ==> RunUpload(env, reportFinal).outcome == NoUploadUrl
  {
  }

  /** The initiation response carries no file id (its body is empty), so the
      action as written reports none even though the final chunk's reply
      names the new file. */
  lemma FileIdFinding()
    ensures var env := UploadEnv("t", true, true, true, 1, InitReply(Some("u"), None), [Chunk(1, Status(200, Some("id")))]);
      UploadAsWritten(env).outcome == Uploaded(None) && UploadCorrected(env).outcome == Uploaded(Some("id"))
  {
    var env := UploadEnv("t", true, true, true, 1, InitReply(Some("u"), None), [Chunk(1, Status(200, Some("id")))]);
    assert FirstRejected(env.chunks) == 1;
  }

  /** The two variants take the same steps and end the same way, except that
      a successful upload reports the final chunk's id once corrected and the
      initiation response's id as written. */
  lemma ReportsFinalId(env: UploadEnv)
    ensures UploadCorrected(env).steps == UploadAsWritten(env).steps
    ensures UploadCorrected(env).outcome.Uploaded? <==> UploadAsWritten(env).outcome.Uploaded?
    ensures !UploadAsWritten(env).outcome.Uploaded? ==> UploadCorrected(env).outcome == UploadAsWritten(env).outcome
    ensures UploadAsWritten(env).outcome.Uploaded? ==>
      env.init.InitReply? && UploadAsWritten(env).outcome.fileId == env.init.fileId
    ensures UploadCorrected(env).outcome.Uploaded? && |env.chunks| > 0 ==>
      UploadCorrected(env).outcome.fileId == env.chunks[|env.chunks| - 1].reply.fileId
    ensures UploadCorrected(env).outcome.Uploaded? && |env.chunks| == 0 ==> UploadCorrected(env).outcome.fileId == None
  {
  }
}
